=== FILE: README.md ===
# Daily gratitude journal: store, CSV exchange and reminder, in Dafny

This project models the core of a single-user journaling app. The user writes
one short entry per calendar day. The app keeps the entries in a local SQLite
table. It exports and imports them as a CSV document and shows a daily
reminder unless today's entry already exists.

The model has seven modules:

- `Wrappers`: the `Option` type the other modules share.
- `Text`: the JavaScript string operations the app relies on. These are
  `trim`, `split("\n")` and `join("\n")`, plus the binary ordering SQLite uses
  for `ORDER BY date`.
- `EntryStore`: the `gratitude_entries` table. It is a map from date to the
  rest of the row, so the `UNIQUE` date column holds by construction.
  Unique ids are the invariant `UniqueIds`. The operations are
  `getEntryByDate`, `getAllEntries` (a method that sorts the dates in
  descending order), `saveEntry` (an upsert on date), `deleteEntry` and
  `deleteAllEntries`.
- `SettingsStore`: the `settings` table. Because of `CHECK (id = 1)` it holds
  at most one row, so it is an `Option`. The operations are
  `getNotificationSettings` (which inserts the default row on first read) and
  `saveNotificationSettings`.
- `Csv`: the export format and the pieces of the import parser.
  - Quote doubling and newline escaping.
  - The tokenizer. It reproduces what `String.prototype.match` returns for
    `/(?:^|,)("(?:[^"]|"")*"|[^,]*)/g`, including how the global scan advances
    and how the quoted alternative backtracks.
  - `cleanValue`, the `YYYY-MM-DD` check, and the exported document.
- `CsvImport`: the import loop.
  - Each physical line gets a verdict: blank, too few fields, bad date, or
    accepted.
  - The loop is a fold over these verdicts. It updates two counters and the
    store. `HandleImport` is the loop written imperatively.
  - The headline property is `ExportImportRoundTrip`. It covers entries with
    distinct, well-formed dates, content without a literal backslash-`n`,
    and timestamps without quotes or line feeds, which `toISOString` always
    gives. For such entries, exporting and then importing the document
    restores every date with its content, counting one import per entry and
    no error. A timestamp holding a quote would let the third quoted field
    swallow the comma after it, leaving a line with too few fields.
- `Reminders`: the foreground notification handler's decision, the scheduled
  reminders as a list of pending requests, and the permission decision.
  Today's date, the notification service and the user's answer to the
  permission prompt are parameters.

Random UUIDs and `new Date()` timestamps are parameters. `SaveEntry` takes
`freshId` and `now`. The import takes `stamps: nat -> Stamp`, which gives the
id and time for the save of line `i`.

Content must not contain a backslash directly followed by `n` for the round
trip to hold. A user would expect identical content; the code turns a typed
backslash-`n` into a line feed, because the import undoes the newline escape
by a blind replacement. For content without quotes and line feeds,
`Csv.BackslashNComesBackAsNewline` states exactly what comes back, and
`Csv.BackslashNIsNotRestored` shows the smallest case. The model follows the
code and states the round trip under `NoBackslashN`.

## Model

| member | source | states |
|---|---|---|
| `Text.Trim` | app/settings/data-management.tsx:101 | the trimmed line is a window of the line with only whitespace outside it, and it starts and ends with a character `trim` keeps; it is empty exactly when the line is all whitespace; a line without surrounding whitespace is unchanged |
| `Text.TrimIdempotent` | app/settings/data-management.tsx:101 | trimming an already trimmed line changes nothing |
| `Text.JoinLines` | app/settings/data-management.tsx:45 | joining gives the empty string for no pieces and the piece itself for one; otherwise it starts with the first piece followed by a line feed |
| `Text.SplitLines` | app/settings/data-management.tsx:90 | splitting yields at least one line, no line holds a line feed, and there is a single line exactly when the text has no line feed |
| `Text.SplitJoin` | app/settings/data-management.tsx:45 | splitting the joined document returns the lines that were joined, when none holds a line feed |
| `Text.JoinSplit` | app/settings/data-management.tsx:90 | joining the split pieces with line feeds gives back the original text |
| `Text.StrLessTotal` | lib/database.ts:69 | the TEXT ordering used for `ORDER BY date` compares any two distinct dates |
| `Text.StrLessTransitive` | lib/database.ts:69 | the TEXT ordering is transitive |
| `Text.StrLessIrreflexive` | lib/database.ts:69 | no date sorts before itself |
| `EntryStore.GetEntryByDate` | lib/database.ts:49-60 | an entry is returned exactly when the date is stored, with that row's id, content and timestamps |
| `EntryStore.SaveEntry` | lib/database.ts:78-98 | upsert on date: the date is present afterwards with the new content and `updated_at = now`; an existing row keeps id and `created_at`; a new row gets the fresh id and `created_at = now`; other dates are untouched; no id other than the fresh one appears |
| `EntryStore.DeleteEntry` | lib/database.ts:103-107 | exactly that date disappears, other rows are unchanged, and deleting an absent date changes nothing |
| `EntryStore.DeleteAllEntries` | lib/database.ts:112-116 | afterwards no date has an entry |
| `EntryStore.InsertDesc` | lib/database.ts:68-70 | inserting a new date into a descending list keeps it descending and adds exactly that date |
| `EntryStore.GetAllEntries` | lib/database.ts:65-73 | every stored row appears exactly once, as stored, strictly descending by date |
| `EntryStore.SaveThenGet` | lib/database.ts:78-98 | after a save the lookup by that date returns the saved content |
| `EntryStore.SaveExistingKeepsIdentity` | lib/database.ts:84-89 | saving an existing date keeps id, date and creation time, sets content and update time, and changes no other entry or the count |
| `EntryStore.SaveNewInsertsFresh` | lib/database.ts:90-97 | saving a new date inserts one entry with the fresh id, created and updated now |
| `EntryStore.SaveKeepsIdsUnique` | lib/database.ts:28-34 | the id primary key survives every save: an update keeps the row's id, and an insert needs only its generated id to be new |
| `EntryStore.DeleteKeepsIdsUnique` | lib/database.ts:103-116 | deleting one date or every date keeps the id primary key |
| `EntryStore.SaveTwiceKeepsCreation` | lib/database.ts:81-89 | a second save of the same date keeps the id and creation time the first save left |
| `EntryStore.DeleteThenGet` | lib/database.ts:103-107 | after a delete the date is gone and every other date reads as before |
| `EntryStore.SaveAfterDeleteIsInsert` | lib/database.ts:81-97 | a date saved again after deletion is a fresh insert, not a revival of the old row |
| `SettingsStore.GetNotificationSettings` | lib/database.ts:121-143 | on an empty table the default row (enabled, 8:00) is stored and returned; otherwise the stored row is returned with `enabled` true exactly when the column is 1; the result always has id 1 |
| `SettingsStore.SaveNotificationSettings` | lib/database.ts:149-163 | the single row is replaced; the flag is stored as 1 when enabled and 0 otherwise; hour and minute are stored unchecked |
| `SettingsStore.SaveThenGet` | lib/database.ts:139-163 | a read after a save returns exactly the saved flag, hour and minute, and writes nothing |
| `SettingsStore.GetTwice` | lib/database.ts:131-137 | a second read returns the first read's values and does not insert again |
| `Csv.IsDbDate` | app/settings/data-management.tsx:124 | the date check accepts exactly ten characters: four ASCII digits, a dash, two digits, a dash, two digits |
| `Csv.DateCheckAcceptsAnyMonth` | app/settings/data-management.tsx:124 | the date check does not look at the calendar: month 13 and February 31 pass |
| `Csv.DateCheckNeedsFullWidth` | app/settings/data-management.tsx:124 | single-digit month or day and trailing characters fail |
| `Csv.DoubleQuotes` | app/settings/data-management.tsx:41 | doubling leaves every quote in an adjacent pair, never shortens the text, and undoubling gives the input back |
| `Csv.EscapeNewlines` | app/settings/data-management.tsx:42 | the escaped text holds no line feed and is never shorter than the input |
| `Csv.EscapeContent` | app/settings/data-management.tsx:40-42 | escaped content holds no line feed, every quote in it belongs to an adjacent doubled pair, and undoing the doubling leaves the content with only its line feeds escaped |
| `Csv.EscapeContentIsTwoReplacements` | app/settings/data-management.tsx:40-42 | the character-by-character escape equals the two replacements in the source order: quotes doubled, then line feeds escaped |
| `Csv.ExportRow` | app/settings/data-management.tsx:43 | an exported record opens and closes with a quote |
| `Csv.ExportDocument` | app/settings/data-management.tsx:31-45 | nothing is exported when there are no entries; otherwise the document is the header line and the rows joined by line feeds |
| `Csv.StripFieldQuotes` | app/settings/data-management.tsx:114 | at most three delimiter characters go; a quoted field loses exactly its two quotes, a quoted later field its comma and quotes, a bare later field its comma, and a bare first field nothing |
| `Csv.CleanValue` | app/settings/data-management.tsx:113-118 | cleaning never lengthens a match; a quoted field whose inside holds no quote and no backslash cleans to that inside, and a bare first field without quote or backslash cleans to itself |
| `Csv.UndoubleQuotes` | app/settings/data-management.tsx:115 | undoubling never lengthens the text; `Csv.DoubleQuotes` states that it inverts the doubling |
| `Csv.UndoubleQuoteFree` | app/settings/data-management.tsx:115 | text without quotes has nothing to undouble |
| `Csv.UnescapeNewlines` | app/settings/data-management.tsx:116 | unescaping never lengthens the text and leaves text without a backslash-n unchanged; `Csv.UnescapeEscapedNewlines` states when it inverts the escape |
| `Csv.QuotedTail` | app/settings/data-management.tsx:106 | the quoted alternative, with the engine's backtracking, consumes at least its closing quote, stays within the text and ends on a quote |
| `Csv.QuotedTailFailsWithoutQuote` | app/settings/data-management.tsx:106 | the quoted alternative fails exactly when no quote follows the opening one |
| `Csv.UnquotedLength` | app/settings/data-management.tsx:106 | the bare alternative takes the longest run without a comma: it stops at the first comma or the end |
| `Csv.LaterTokens` | app/settings/data-management.tsx:106 | the global scan after the first match yields matches that each start with a comma |
| `Csv.LaterTokensNoneWithoutComma` | app/settings/data-management.tsx:106 | the scan after the first match finds nothing exactly when no comma is left |
| `Csv.Tokens` | app/settings/data-management.tsx:106 | the matcher returns at least one match; the first is a prefix of the line and every later one starts with a comma |
| `Csv.UnescapeEscapedNewlines` | app/settings/data-management.tsx:116 | unescaping restores the line feeds of content without a literal backslash-n |
| `Csv.CleanExportedContent` | app/settings/data-management.tsx:113-118 | cleaning the exported content field returns the original content, given no literal backslash-n |
| `Csv.CleanExportedContentAsWritten` | app/settings/data-management.tsx:113-118 | for any content, cleaning the exported field undoes the quote doubling exactly and then applies the blind backslash-n replacement to the escaped text |
| `Csv.CleanExportedDate` | app/settings/data-management.tsx:113-118 | cleaning the exported date field returns the date |
| `Csv.BackslashNComesBackAsNewline` | app/settings/data-management.tsx:113-118 | content with no quote and no line feed is exported exactly as typed, and cleaning its field turns every backslash-n in it into a line feed |
| `Csv.BackslashNIsNotRestored` | app/settings/data-management.tsx:116 | the content `a\nb` (a backslash and an `n` between `a` and `b`) comes back as `a`, a line feed and `b`, which differs from what was exported |
| `Csv.QuotedTailOfPaired` | app/settings/data-management.tsx:106 | the quoted alternative of the tokenizer stops at the closing quote of a field with paired quotes |
| `Csv.TokensOfExportRow` | app/settings/data-management.tsx:106 | the tokenizer splits the exported row of any entry whose date and timestamps hold no quote into exactly its four quoted fields, the first without and the others with their leading comma; the content may hold anything |
| `Csv.ExportRowIsOneLine` | app/settings/data-management.tsx:43 | an exported record is one physical line exactly when its date and timestamps hold no line feed |
| `Csv.ExportDocumentLines` | app/settings/data-management.tsx:45 | when no date or timestamp holds a line feed, the exported document splits back into the header and one line per entry, in order |
| `CsvImport.ParseLine` | app/settings/data-management.tsx:101-127 | a line is skipped exactly when it is blank after trimming; otherwise it is rejected for too few fields exactly when the trimmed line gives fewer than four matches, rejected for its date exactly when the cleaned first match fails the date check, and accepted with the cleaned first and second matches as date and content |
| `CsvImport.ImportLine` | app/settings/data-management.tsx:102-135 | a blank line changes nothing; a rejected line adds one error and leaves the store; an accepted line saves the entry and adds one import |
| `CsvImport.ImportFrom` | app/settings/data-management.tsx:100-136 | the loop from a line to the end does nothing past the last line, never lowers a counter, and saves and imports nothing when none of its lines is accepted; `CsvImport.ImportCounts` gives the counter total |
| `CsvImport.ImportDocument` | app/settings/data-management.tsx:90-94 | the file is rejected as invalid before anything is saved exactly when it has no line feed |
| `CsvImport.HandleImport` | app/settings/data-management.tsx:90-136 | the loop computes the fold's outcome, and imported plus failed equals the number of non-blank lines after the header |
| `CsvImport.ImportLoopStep` | app/settings/data-management.tsx:100-136 | one turn of the loop advances the fold by one line, and the two counters together grow by one exactly when the line is not blank |
| `CsvImport.NonBlankCountSnoc` | app/settings/data-management.tsx:102 | counting non-blank verdicts grows by one for a non-blank line and not for a blank one |
| `CsvImport.NonBlankCountCons` | app/settings/data-management.tsx:102 | the same count taken from the front |
| `CsvImport.ImportCounts` | app/settings/data-management.tsx:97-136 | every non-blank line counts exactly once, as an import or an error, and a failing line does not stop the loop |
| `CsvImport.NonBlankCountOfLines` | app/settings/data-management.tsx:101-102 | the verdicts count exactly the lines that are not all whitespace |
| `CsvImport.ImportAllAccepted` | app/settings/data-management.tsx:129-131 | when every line is accepted, each is imported and no error is counted |
| `CsvImport.ImportFromReadsSuffix` | app/settings/data-management.tsx:100 | the loop never reads a line before its start |
| `CsvImport.HeaderIsIgnored` | app/settings/data-management.tsx:96-100 | the first line is discarded unread: any two header lines give the same import |
| `CsvImport.SaveContents` | app/settings/data-management.tsx:130 | a save sets that date's content and no other date's |
| `CsvImport.ImportMatchesOverlay` | app/settings/data-management.tsx:129-131 | the store after the import maps dates to contents as the accepted lines, applied in file order, dictate |
| `CsvImport.OverlayUntouched` | app/settings/data-management.tsx:129-131 | a date no line sets keeps its previous content, or stays absent |
| `CsvImport.LastLineWins` | app/settings/data-management.tsx:129-130 | when several lines carry one date, the last accepted one decides its content |
| `CsvImport.OverlayKeys` | app/settings/data-management.tsx:129-130 | the import adds exactly the dates of the accepted lines |
| `CsvImport.ImportKeepsIdsUnique` | app/settings/data-management.tsx:130 | an import with fresh ids keeps the id primary key |
| `CsvImport.ParseExportRow` | app/settings/data-management.tsx:101-127 | an exported row is accepted with the entry's date and content |
| `CsvImport.AcceptedDatesOfEntries` | app/settings/data-management.tsx:129-130 | the dates a re-read export sets are the entries' dates |
| `CsvImport.OverlayOfEntries` | app/settings/data-management.tsx:129-130 | a re-read export with distinct dates sets every date to its entry's content |
| `CsvImport.ImportFromRestores` | app/settings/data-management.tsx:97-136 | importing re-read rows counts one import per entry, no error, adds exactly the entries' dates and restores their contents |
| `CsvImport.ExportImportRoundTrip` | app/settings/data-management.tsx:37-136 | for at least one entry, with distinct dates that pass the date check, content without a literal backslash-n, and timestamps without quotes or line feeds: export then import restores each entry's content under its date, counts one import per entry and no error, and adds no other date |
| `Reminders.HasTodayEntry` | lib/notifications.ts:72-76 | true exactly when the store has an entry for today |
| `Reminders.HandleNotification` | lib/notifications.ts:40-67 | the badge is never set; alert, sound, banner and list are all on or all off, and on exactly when today has no entry |
| `Reminders.SavedTodayIsSilent` | lib/notifications.ts:44-56 | once today's entry is saved the reminder is fully suppressed |
| `Reminders.DeletedTodayRemindsAgain` | lib/notifications.ts:58-64 | after deleting today's entry, or all entries, the reminder is presented in full |
| `Reminders.OtherDaysDoNotMatter` | lib/notifications.ts:72-76 | saving or deleting another day's entry does not change today's decision |
| `Reminders.CancelAllNotifications` | lib/notifications.ts:117-120 | no reminder remains scheduled |
| `Reminders.CancelIsIdempotent` | lib/notifications.ts:117-120 | cancelling twice is cancelling once |
| `Reminders.ScheduleGratitudeNotification` | lib/notifications.ts:83-105 | the call resolves exactly when the notification service accepts the request; then exactly one request remains, the gratitude reminder on a daily repeating calendar trigger at the given hour and minute; when the service refuses, nothing remains, because the cancellation ran first |
| `Reminders.ScheduleSupersedes` | lib/notifications.ts:87-105 | what was scheduled before makes no difference, so rescheduling replaces and never stacks |
| `Reminders.RefusedRescheduleLeavesNone` | lib/notifications.ts:87-92 | a refused reschedule leaves no reminder at all, not the previous one |
| `Reminders.RequestNotificationPermissions` | lib/notifications.ts:9-33 | the user is asked exactly when the status is not already granted; the result is true exactly when the final status is granted, that is, when it was granted before or the answer grants it |
| `Reminders.GrantedIsStable` | lib/notifications.ts:10-16 | with permission already granted, nobody is asked and the result is true |

## Left out

- `CsvImport.ExportImportRoundTrip`: the model's timestamps are arbitrary strings, so the round trip assumes the shape `toISOString` gives: no quote and no line feed in `created_at` and `updated_at`. Without it a quoted timestamp can merge two fields and the line is counted as an error.
- User interface: rendering, navigation, the time picker, `Alert` dialogs, and the "Import Complete" and "Import Failed" messages built from the counters. The counters themselves are modelled.
- File I/O: picking, reading, writing and sharing files, and the export file name built from the clock. The model works on the document text.
- The SQLite engine: queries are modelled by their effect on the table, and the lazy `initDatabase` on first use is left out. The `idx_date` index affects only speed.
- Storage failures and the `catch` paths: every store call is modelled as succeeding. The per-line `catch` in the import would count an error. It is left out because a save of a well-formed date cannot violate the schema once ids are fresh (`CsvImport.ImportKeepsIdsUnique`).
- `Crypto.randomUUID` and `new Date()` become parameters. UUID uniqueness is an assumption stated by `CsvImport.FreshStamps` and by the requirement of `EntryStore.SaveKeepsIdsUnique` that an inserted row's generated id is new.
- `lib/date-helpers.ts` is not part of this model. Today's date reaches `Reminders` already formatted.
- The Android notification channel, `getScheduledNotifications` and console logging: none of them affects the decisions modelled.
- Asynchronous interleaving: operations are modelled as running one at a time in the order issued, which is how the app uses them.
- JavaScript strings are UTF-16 code units while the model's strings are sequences of characters. None of the modelled operations treats a surrogate pair differently from two units.
- JavaScript numbers become unbounded integers for hour, minute and the counters. Out-of-range integers are stored unchecked, in the app as in the model. Fractional values cannot be expressed in the model, and neither is their SQLite REAL storage.
- The app-startup and settings-screen glue (`app/_layout.tsx`, `app/(tabs)/settings.tsx`) that chains the settings read, the permission request and scheduling is left out. Its pieces are modelled. The settings screen also carries its own copy of the CSV export and import (`app/(tabs)/settings.tsx`:132-258), the same code line for line, so `Csv` and `CsvImport` model that copy as well.
- `CsvImport.HandleImport`: the method reads all lines before the loop applies the verdicts, where the app parses each line inside the loop. Parsing has no effect, so the outcome is the same.
- `Reminders.RequestNotificationPermissions`: the permission service is modelled as always answering. A rejected `getPermissionsAsync` or `requestPermissionsAsync`, and a rejected Android channel setup, are not modelled; they would reject the call instead of returning a result.
- `Reminders.CancelAllNotifications`: a rejected cancellation is not modelled; it would leave the pending requests in place and reject `scheduleGratitudeNotification` before anything is registered. A refused registration is modelled (`Reminders.ScheduleGratitudeNotification`).

=== FILE: csv.dfy ===
/** The CSV exchange format of the data-management screen.

    Export writes the header `date,content,created_at,updated_at` and one
    line per entry with every field in double quotes; inside the content a
    `"` is doubled and a line feed becomes the two characters `\` `n`.

    Import takes a line apart with the global regular expression
    `(?:^|,)("(?:[^"]|"")*"|[^,]*)` and cleans every match with three
    replacements (`cleanValue`). The scanner below reproduces what
    JavaScript's `String.prototype.match` returns for that expression,
    backtracking included; `CleanValue` reproduces the replacements. */
module Csv {
  import opened Wrappers
  import opened Text
  import opened EntryStore

  const Header: string := "date,content,created_at,updated_at"

  // ---------------------------------------------------------------------
  // Escaping (export) and unescaping (import)
  // ---------------------------------------------------------------------

  /** `.replace(/"/g, '""')`. The result has its quotes in adjacent pairs,
      and `UndoubleQuotes` gives the input back. */
  function DoubleQuotes(s: string): (r: string)
    ensures |r| >= |s|
    ensures PairedQuotes(r)
    ensures UndoubleQuotes(r) == s
  {
    if |s| == 0 then ""
    else
      DoubledHeadFacts(s[0], DoubleQuotes(s[1..]));
      assert s == [s[0]] + s[1..];
      (if s[0] == '"' then "\"\"" else [s[0]]) + DoubleQuotes(s[1..])
  }

  /** One step of the doubling keeps the quotes paired and is undone by one
      step of the undoubling. */
  lemma DoubledHeadFacts(x: char, rest: string)
    requires PairedQuotes(rest)
    ensures var h := if x == '"' then "\"\"" else [x];
      PairedQuotes(h + rest) && UndoubleQuotes(h + rest) == [x] + UndoubleQuotes(rest)
  {
    var h := if x == '"' then "\"\"" else [x];
    if x == '"' {
      assert (h + rest)[2..] == rest;
    } else {
      assert (h + rest)[1..] == rest;
    }
  }

  /** `.replace(/\n/g, "\\n")`: a line feed becomes backslash, `n`. */
  function EscapeNewlines(s: string): (r: string)
    ensures NoNewline(r)
    ensures |r| >= |s|
  {
    if |s| == 0 then ""
    else (if s[0] == '\n' then "\\n" else [s[0]]) + EscapeNewlines(s[1..])
  }

  /** What export turns one character of the content into. */
  function EscapedChar(x: char): string {
    if x == '"' then "\"\"" else if x == '\n' then "\\n" else [x]
  }

  /** The content field as export writes it, character by character. The
      two replacements of the export never interact (doubling adds no line
      feed, escaping adds no quote), so this is the string the two
      replacements give in turn (`EscapeContentIsTwoReplacements`). The
      result is one physical line, its quotes come in adjacent pairs, and
      undoing the doubling leaves only the newline escape. */
  function EscapeContent(content: string): (r: string)
    ensures NoNewline(r)
    ensures PairedQuotes(r)
    ensures UndoubleQuotes(r) == EscapeNewlines(content)
  {
    if |content| == 0 then ""
    else
      var x, rest := content[0], EscapeContent(content[1..]);
      EscapedCharFacts(x);
      PairedQuotesAppend(EscapedChar(x), rest);
      UndoubleAppendPaired(EscapedChar(x), rest);
      EscapeNewlinesAppend([x], content[1..]);
      assert content == [x] + content[1..];
      EscapedChar(x) + rest
  }

  /** `.replace(/""/g, '"')`, scanning left to right without overlap. */
  function UndoubleQuotes(s: string): (r: string)
    ensures |r| <= |s|
  {
    if |s| == 0 then ""
    else if |s| >= 2 && s[0] == '"' && s[1] == '"' then "\"" + UndoubleQuotes(s[2..])
    else [s[0]] + UndoubleQuotes(s[1..])
  }

  /** `.replace(/\\n/g, "\n")`: backslash followed by `n` becomes a line
      feed. Text without that pair comes through unchanged. */
  function UnescapeNewlines(s: string): (r: string)
    ensures |r| <= |s|
    ensures NoBackslashN(s) ==> r == s
  {
    if |s| == 0 then ""
    else if |s| >= 2 && s[0] == '\\' && s[1] == 'n' then "\n" + UnescapeNewlines(s[2..])
    else [s[0]] + UnescapeNewlines(s[1..])
  }

  /** `.replace(/^,?"?|"?$/g, "")`. The first alternative matches at index 0
      only and takes an optional comma, then an optional quote. The global
      scan resumes after that match (at index 1 when it was empty, which
      only happens when the string does not start with a comma or a quote),
      so the second alternative can remove one quote at the very end of what
      the first left over, and otherwise matches the empty end. */
  function StripFieldQuotes(v: string): (r: string)
    ensures |v| - 3 <= |r| <= |v|
    ensures |v| >= 2 && v[0] == '"' && v[|v| - 1] == '"' ==> r == v[1..|v| - 1]
    ensures |v| >= 3 && v[0] == ',' && v[1] == '"' && v[|v| - 1] == '"' ==> r == v[2..|v| - 1]
    ensures (|v| == 0 || (v[0] != ',' && v[0] != '"' && v[|v| - 1] != '"')) ==> r == v
    ensures |v| >= 2 && v[0] == ',' && v[1] != '"' && v[|v| - 1] != '"' ==> r == v[1..]
  {
    var p1 := if |v| > 0 && v[0] == ',' then 1 else 0;
    var p := if |v| > p1 && v[p1] == '"' then p1 + 1 else p1;
    var t := v[p..];
    if |t| > 0 && t[|t| - 1] == '"' then t[..|t| - 1] else t
  }

  /** `cleanValue` of the import loop: the field without its delimiters,
      doubled quotes undone and backslash-`n` turned into a line feed. A
      quoted field, or a bare one, holding no quote and no backslash comes
      back as its text. */
  function CleanValue(v: string): (r: string)
    ensures |r| <= |v|
    ensures |v| >= 2 && v[0] == '"' && v[|v| - 1] == '"' && '"' !in v[1..|v| - 1] && '\\' !in v[1..|v| - 1]
      ==> r == v[1..|v| - 1]
    ensures (|v| == 0 || v[0] != ',') && '"' !in v && '\\' !in v ==> r == v
  {
    var inner := StripFieldQuotes(v);
    PlainTextUnchanged(inner);
    UnescapeNewlines(UndoubleQuotes(inner))
  }

  /** Text with no quote and no backslash passes both replacements. */
  lemma PlainTextUnchanged(s: string)
    ensures '"' !in s && '\\' !in s ==> UnescapeNewlines(UndoubleQuotes(s)) == s
  {
    if '"' !in s && '\\' !in s {
      UndoubleQuoteFree(s);
      assert NoBackslashN(s) by {
        forall i | 0 <= i < |s| - 1 ensures s[i] != '\\' {
          assert s[i] in s;
        }
      }
    }
  }

  /** No backslash directly followed by `n`: the content for which export
      and import are inverse. */
  predicate NoBackslashN(s: string) {
    forall i :: 0 <= i < |s| - 1 ==> !(s[i] == '\\' && s[i + 1] == 'n')
  }

  // ---------------------------------------------------------------------
  // The tokenizer
  // ---------------------------------------------------------------------

  /** Matching `(?:[^"]|"")*"` at the start of `u` (just after an opening
      quote), with the backtracking of the regular expression engine: the
      items are forced (a non-quote, or a doubled quote), the star is
      greedy, and on failure the engine falls back to the last quote
      reached along the way. Returns the number of characters consumed,
      closing quote included. */
  function QuotedTail(u: string): (r: Option<nat>)
    ensures r.Some? ==> 1 <= r.value <= |u| && u[r.value - 1] == '"'
  {
    if |u| == 0 then None
    else if u[0] != '"' then
      match QuotedTail(u[1..])
      case Some(n) => Some(n + 1)
      case None => None
    else if |u| >= 2 && u[1] == '"' then
      match QuotedTail(u[2..])
      case Some(n) => Some(n + 2)
      case None => Some(1)
    else Some(1)
  }

  /** The quoted alternative fails exactly when no quote follows the
      opening one: any quote reached can close the field. */
  lemma {:induction false} QuotedTailFailsWithoutQuote(u: string)
    ensures QuotedTail(u).None? <==> '"' !in u
    decreases |u|
  {
    if |u| > 0 && u[0] != '"' {
      QuotedTailFailsWithoutQuote(u[1..]);
      assert u == [u[0]] + u[1..];
    }
  }

  /** Length of `[^,]*` at the start of `t`. */
  function UnquotedLength(t: string): (n: nat)
    ensures n <= |t|
    ensures forall i :: 0 <= i < n ==> t[i] != ','
    ensures n < |t| ==> t[n] == ','
  {
    if |t| == 0 || t[0] == ',' then 0 else 1 + UnquotedLength(t[1..])
  }

  /** Length of the capture group at the start of `t`: the quoted form when it
      matches, otherwise the unquoted one. */
  function FieldLength(t: string): (n: nat)
    ensures n <= |t|
  {
    if |t| > 0 && t[0] == '"' && QuotedTail(t[1..]).Some? then 1 + QuotedTail(t[1..]).value
    else UnquotedLength(t)
  }

  /** Matches after the first: each starts at the next comma (the `^`
      alternative cannot match past index 0), and the scan resumes where the
      previous match ended, skipping characters that are not commas. */
  function LaterTokens(t: string): (r: seq<string>)
    ensures forall i :: 0 <= i < |r| ==> |r[i]| > 0 && r[i][0] == ','
    decreases |t|
  {
    if |t| == 0 then []
    else if t[0] != ',' then LaterTokens(t[1..])
    else
      var n := 1 + FieldLength(t[1..]);
      [t[..n]] + LaterTokens(t[n..])
  }

  /** The scan after the first match finds nothing exactly when no comma
      is left. */
  lemma {:induction false} LaterTokensNoneWithoutComma(t: string)
    ensures LaterTokens(t) == [] <==> ',' !in t
    decreases |t|
  {
    if |t| > 0 && t[0] != ',' {
      LaterTokensNoneWithoutComma(t[1..]);
      assert t == [t[0]] + t[1..];
    }
  }

  /** `line.match(/(?:^|,)("(?:[^"]|"")*"|[^,]*)/g)`. The first match sits at
      index 0 behind `^`; when it is empty (the line starts with a comma) the
      scan moves on one character, so that comma starts no match. */
  function Tokens(line: string): (r: seq<string>)
    ensures |r| >= 1
    ensures |r[0]| <= |line| && r[0] == line[..|r[0]|]
    ensures forall i :: 1 <= i < |r| ==> |r[i]| > 0 && r[i][0] == ','
  {
    var n := FieldLength(line);
    var rest := if n > 0 then line[n..] else if |line| > 0 then line[1..] else "";
    [line[..n]] + LaterTokens(rest)
  }

  // ---------------------------------------------------------------------
  // The date check
  // ---------------------------------------------------------------------

  /** One position of `^\d{4}-\d{2}-\d{2}$`. */
  datatype CharClass = Digit | Dash

  const DatePattern: seq<CharClass> := [Digit, Digit, Digit, Digit, Dash, Digit, Digit, Dash, Digit, Digit]

  predicate ClassMatches(k: CharClass, c: char) {
    match k
    case Digit => IsDigit(c)
    case Dash => c == '-'
  }

  /** An anchored match of a fixed-width pattern. */
  predicate MatchesPattern(s: string, pattern: seq<CharClass>)
    decreases |s|
  {
    if |s| == 0 then |pattern| == 0
    else |pattern| > 0 && ClassMatches(pattern[0], s[0]) && MatchesPattern(s[1..], pattern[1..])
  }

  /** `/^\d{4}-\d{2}-\d{2}$/.test(date)`, position by position: ten
      characters, four ASCII digits, a dash, two digits, a dash, two digits.
      Nothing checks the calendar. */
  predicate IsDbDate(date: string): (r: bool)
    ensures r <==>
      && |date| == 10
      && IsDigit(date[0]) && IsDigit(date[1]) && IsDigit(date[2]) && IsDigit(date[3])
      && date[4] == '-' && IsDigit(date[5]) && IsDigit(date[6])
      && date[7] == '-' && IsDigit(date[8]) && IsDigit(date[9])
  {
    DatePositions(date);
    MatchesPattern(date, DatePattern)
  }

  /** The anchored pattern, unrolled over its ten positions. */
  lemma DatePositions(date: string)
    ensures MatchesPattern(date, DatePattern) <==>
      && |date| == 10
      && IsDigit(date[0]) && IsDigit(date[1]) && IsDigit(date[2]) && IsDigit(date[3])
      && date[4] == '-' && IsDigit(date[5]) && IsDigit(date[6])
      && date[7] == '-' && IsDigit(date[8]) && IsDigit(date[9])
  {
    PatternPositions(date, DatePattern);
    if |date| == 10 {
      var p := DatePattern;
      assert p[0] == Digit && p[1] == Digit && p[2] == Digit && p[3] == Digit && p[4] == Dash;
      assert p[5] == Digit && p[6] == Digit && p[7] == Dash && p[8] == Digit && p[9] == Digit;
      if MatchesPattern(date, DatePattern) {
        assert ClassMatches(p[0], date[0]) && ClassMatches(p[1], date[1]) && ClassMatches(p[2], date[2]);
        assert ClassMatches(p[3], date[3]) && ClassMatches(p[4], date[4]) && ClassMatches(p[5], date[5]);
        assert ClassMatches(p[6], date[6]) && ClassMatches(p[7], date[7]) && ClassMatches(p[8], date[8]);
        assert ClassMatches(p[9], date[9]);
      }
    }
  }

  lemma {:induction false} PatternPositions(s: string, pattern: seq<CharClass>)
    ensures MatchesPattern(s, pattern) <==>
      (|s| == |pattern| && forall i :: 0 <= i < |s| ==> ClassMatches(pattern[i], s[i]))
    decreases |s|
  {
    if |s| > 0 && |pattern| > 0 {
      PatternPositions(s[1..], pattern[1..]);
      if |s| == |pattern| && forall i :: 1 <= i < |s| ==> ClassMatches(pattern[i], s[i]) {
        assert forall i :: 0 <= i < |s| - 1 ==> ClassMatches(pattern[1..][i], s[1..][i]) by {
          forall i | 0 <= i < |s| - 1 ensures ClassMatches(pattern[1..][i], s[1..][i]) {
            assert ClassMatches(pattern[i + 1], s[i + 1]);
          }
        }
      }
      if MatchesPattern(s, pattern) {
        forall i | 0 <= i < |s| ensures ClassMatches(pattern[i], s[i]) {
          if i > 0 {
            assert ClassMatches(pattern[1..][i - 1], s[1..][i - 1]);
          }
        }
      }
    }
  }

  /** No calendar check: month 13 and February 31 pass. */
  lemma DateCheckAcceptsAnyMonth()
    ensures IsDbDate("2024-13-01") && IsDbDate("2024-02-31")
  {
    var a := "2024-13-01";
    assert a[0] == '2' && a[1] == '0' && a[2] == '2' && a[3] == '4' && a[4] == '-';
    assert a[5] == '1' && a[6] == '3' && a[7] == '-' && a[8] == '0' && a[9] == '1';
    var b := "2024-02-31";
    assert b[0] == '2' && b[1] == '0' && b[2] == '2' && b[3] == '4' && b[4] == '-';
    assert b[5] == '0' && b[6] == '2' && b[7] == '-' && b[8] == '3' && b[9] == '1';
  }

  /** Single-digit fields and trailing characters fail. */
  lemma DateCheckNeedsFullWidth()
    ensures !IsDbDate("2024-1-1") && !IsDbDate("2024-01-01 ")
  {
  }

  // ---------------------------------------------------------------------
  // Export
  // ---------------------------------------------------------------------

  /** One exported record: four fields, each in double quotes, so the
      record opens and closes with a quote. Only the content is escaped. */
  function ExportRow(e: Entry): (r: string)
    ensures |r| >= 2 && r[0] == '"' && r[|r| - 1] == '"'
  {
    "\"" + e.date + "\",\"" + EscapeContent(e.content) + "\",\"" + e.createdAt + "\",\"" + e.updatedAt + "\""
  }

  function ExportRows(entries: seq<Entry>): (rows: seq<string>)
    ensures |rows| == |entries|
    ensures forall i :: 0 <= i < |entries| ==> rows[i] == ExportRow(entries[i])
  {
    seq(|entries|, i requires 0 <= i < |entries| => ExportRow(entries[i]))
  }

  /** The exported document, or nothing when there are no entries: the header
      line, then the rows joined by line feeds, no line feed at the end. */
  function ExportDocument(entries: seq<Entry>): (doc: Option<string>)
    ensures doc.Some? <==> |entries| > 0
    ensures doc.Some? ==> doc.value == JoinLines([Header] + ExportRows(entries))
  {
    if |entries| == 0 then None
    else
      assert ([Header] + ExportRows(entries))[1..] == ExportRows(entries);
      Some(Header + "\n" + JoinLines(ExportRows(entries)))
  }

  // ---------------------------------------------------------------------
  // Properties of the escaping
  // ---------------------------------------------------------------------

  lemma {:induction false} EscapeNewlinesAppend(a: string, b: string)
    ensures EscapeNewlines(a + b) == EscapeNewlines(a) + EscapeNewlines(b)
    decreases |a|
  {
    if |a| > 0 {
      assert (a + b)[1..] == a[1..] + b;
      EscapeNewlinesAppend(a[1..], b);
    } else {
      assert a + b == b;
    }
  }

  /** The character-by-character escape is the export's two replacements:
      quotes doubled first, then line feeds escaped. */
  lemma {:induction false} EscapeContentIsTwoReplacements(c: string)
    ensures EscapeContent(c) == EscapeNewlines(DoubleQuotes(c))
    decreases |c|
  {
    if |c| > 0 {
      var head := if c[0] == '"' then "\"\"" else [c[0]];
      assert DoubleQuotes(c) == head + DoubleQuotes(c[1..]);
      assert EscapeContent(c) == EscapedChar(c[0]) + EscapeContent(c[1..]);
      EscapeNewlinesAppend(head, DoubleQuotes(c[1..]));
      EscapeContentIsTwoReplacements(c[1..]);
      EscapedCharIsTwoReplacements(c[0]);
    }
  }

  lemma EscapedCharIsTwoReplacements(x: char)
    ensures EscapeNewlines(if x == '"' then "\"\"" else [x]) == EscapedChar(x)
  {
    if x == '"' {
      assert "\"\""[1..] == "\"" && "\"\""[1..][1..] == "";
    } else {
      assert [x][1..] == "";
    }
  }

  /** Quotes come in adjacent pairs: the body of a field that the quoted
      alternative of the tokenizer reads up to its own closing quote. */
  predicate PairedQuotes(b: string)
    decreases |b|
  {
    if |b| == 0 then true
    else if b[0] != '"' then PairedQuotes(b[1..])
    else |b| >= 2 && b[1] == '"' && PairedQuotes(b[2..])
  }

  lemma {:induction false} PairedQuotesAppend(a: string, b: string)
    requires PairedQuotes(a) && PairedQuotes(b)
    ensures PairedQuotes(a + b)
    decreases |a|
  {
    if |a| == 0 {
      assert a + b == b;
    } else if a[0] != '"' {
      assert (a + b)[1..] == a[1..] + b;
      PairedQuotesAppend(a[1..], b);
    } else {
      assert (a + b)[2..] == a[2..] + b;
      PairedQuotesAppend(a[2..], b);
    }
  }

  lemma EscapedCharFacts(x: char)
    ensures PairedQuotes(EscapedChar(x))
    ensures UndoubleQuotes(EscapedChar(x)) == EscapeNewlines([x])
  {
    var h := EscapedChar(x);
    if x == '"' {
      assert h[2..] == "";
      assert [x][1..] == "";
    } else if x == '\n' {
      assert h[1..] == "n" && h[1..][1..] == "";
      assert UndoubleQuotes(h[1..]) == "n";
      assert [x][1..] == "";
      assert EscapeNewlines([x]) == "\\n" + EscapeNewlines("");
    } else {
      assert h[1..] == "";
      assert [x][1..] == "";
    }
  }

  /** A string without quotes is trivially paired. */
  lemma {:induction false} QuoteFreeIsPaired(b: string)
    requires '"' !in b
    ensures PairedQuotes(b)
    decreases |b|
  {
    if |b| > 0 {
      assert '"' !in b[1..] by {
        assert b == [b[0]] + b[1..];
      }
      QuoteFreeIsPaired(b[1..]);
    }
  }

  lemma {:induction false} UndoubleAppendPaired(a: string, b: string)
    requires PairedQuotes(a)
    ensures UndoubleQuotes(a + b) == UndoubleQuotes(a) + UndoubleQuotes(b)
    decreases |a|
  {
    if |a| == 0 {
      assert a + b == b;
    } else if a[0] != '"' {
      assert (a + b)[1..] == a[1..] + b;
      UndoubleAppendPaired(a[1..], b);
    } else {
      assert (a + b)[2..] == a[2..] + b;
      UndoubleAppendPaired(a[2..], b);
    }
  }

  /** Text without quotes has nothing to undouble. */
  lemma {:induction false} UndoubleQuoteFree(s: string)
    requires '"' !in s
    ensures UndoubleQuotes(s) == s
    decreases |s|
  {
    if |s| > 0 {
      assert '"' !in s[1..] by {
        assert s == [s[0]] + s[1..];
      }
      UndoubleQuoteFree(s[1..]);
      assert s == [s[0]] + s[1..];
    }
  }

  /** The newline escape is undone exactly when the content had no
      backslash-`n` of its own. */
  lemma {:induction false} UnescapeEscapedNewlines(c: string)
    requires NoBackslashN(c)
    ensures UnescapeNewlines(EscapeNewlines(c)) == c
    decreases |c|
  {
    if |c| > 0 {
      var rest := EscapeNewlines(c[1..]);
      assert NoBackslashN(c[1..]) by {
        forall i | 0 <= i < |c[1..]| - 1 ensures !(c[1..][i] == '\\' && c[1..][i + 1] == 'n') {
          assert c[1..][i] == c[i + 1] && c[1..][i + 1] == c[i + 2];
        }
      }
      UnescapeEscapedNewlines(c[1..]);
      if c[0] == '\n' {
        assert ("\\n" + rest)[2..] == rest;
      } else {
        assert ([c[0]] + rest)[1..] == rest;
        if c[0] == '\\' && |c| >= 2 {
          assert c[1] != 'n';
          assert rest[0] != 'n';
        }
      }
      assert c == [c[0]] + c[1..];
    }
  }

  /** The round trip of the content field: `cleanValue` of the exported
      field (with the comma that starts its match) is the original content,
      embedded quotes, commas and line feeds included. */
  lemma CleanExportedContent(c: string)
    requires NoBackslashN(c)
    ensures CleanValue(",\"" + EscapeContent(c) + "\"") == c
  {
    CleanExportedContentAsWritten(c);
    UnescapeEscapedNewlines(c);
  }

  /** What import makes of any exported content field: the quote doubling
      is undone exactly, the newline escape by a blind replacement that also
      hits a backslash-`n` the user typed. */
  lemma CleanExportedContentAsWritten(c: string)
    ensures CleanValue(",\"" + EscapeContent(c) + "\"") == UnescapeNewlines(EscapeNewlines(c))
  {
    var v := ",\"" + EscapeContent(c) + "\"";
    assert v[2..|v| - 1] == EscapeContent(c);
  }

  /** A well-formed date survives `cleanValue` of its quoted field. */
  lemma CleanExportedDate(date: string)
    requires IsDbDate(date)
    ensures CleanValue("\"" + date + "\"") == date
  {
    var v := "\"" + date + "\"";
    assert v[1..|v| - 1] == date;
    DateHasNoQuoteOrBackslash(date);
  }

  /** Why the round trip needs `NoBackslashN`: content with no quote and no
      line feed is exported exactly as typed, and import turns every
      backslash-`n` in it into a line feed. */
  lemma BackslashNComesBackAsNewline(c: string)
    requires '"' !in c && NoNewline(c)
    ensures EscapeContent(c) == c
    ensures CleanValue(",\"" + EscapeContent(c) + "\"") == UnescapeNewlines(c)
  {
    EscapePlainContent(c);
    CleanExportedContentAsWritten(c);
  }

  /** Without quotes and line feeds the escape changes nothing. */
  lemma {:induction false} EscapePlainContent(c: string)
    requires '"' !in c && NoNewline(c)
    ensures EscapeContent(c) == c && EscapeNewlines(c) == c
    decreases |c|
  {
    if |c| > 0 {
      assert '"' !in c[1..] && NoNewline(c[1..]) by {
        assert c == [c[0]] + c[1..];
      }
      EscapePlainContent(c[1..]);
      assert c == [c[0]] + c[1..];
    }
  }

  /** The smallest case: `a\nb` typed literally comes back as `a`, line
      feed, `b`. */
  lemma BackslashNIsNotRestored()
    ensures CleanValue(",\"" + EscapeContent("a\\nb") + "\"") == "a\nb"
    ensures "a\nb" != "a\\nb"
  {
    var c := "a\\nb";
    assert UnescapeNewlines(c) == "a\nb" by {
      assert c[3..] == "b" && UnescapeNewlines(c[3..]) == "b";
      assert c[1..][2..] == c[3..];
      assert UnescapeNewlines(c[1..]) == "\n" + UnescapeNewlines(c[3..]);
    }
    assert '"' !in c && NoNewline(c) by {
      assert forall i :: 0 <= i < |c| ==> c[i] in "a\\nb";
    }
    BackslashNComesBackAsNewline(c);
  }

  // ---------------------------------------------------------------------
  // Properties of the tokenizer on exported rows
  // ---------------------------------------------------------------------

  /** After a paired body, the closing quote ends the quoted run as long as it
      is not itself followed by a quote. */
  lemma {:induction false} QuotedTailOfPaired(b: string, rest: string)
    requires PairedQuotes(b)
    requires |rest| == 0 || rest[0] != '"'
    ensures QuotedTail(b + "\"" + rest) == Some(|b| + 1)
    decreases |b|
  {
    var u := b + "\"" + rest;
    if |b| == 0 {
      assert u == "\"" + rest;
    } else if b[0] != '"' {
      assert u[1..] == b[1..] + "\"" + rest;
      QuotedTailOfPaired(b[1..], rest);
    } else {
      assert u[2..] == b[2..] + "\"" + rest;
      QuotedTailOfPaired(b[2..], rest);
    }
  }

  /** A quoted field with a paired body is read as one capture group. */
  lemma FieldLengthOfQuoted(b: string, rest: string)
    requires PairedQuotes(b)
    requires |rest| == 0 || rest[0] != '"'
    ensures FieldLength("\"" + b + "\"" + rest) == |b| + 2
  {
    var t := "\"" + b + "\"" + rest;
    DropOpeningQuote(b, rest);
    QuotedTailOfPaired(b, rest);
    FieldLengthAtQuote(t, |b| + 1);
  }

  lemma DropOpeningQuote(b: string, rest: string)
    ensures var t := "\"" + b + "\"" + rest; t[0] == '"' && t[1..] == b + "\"" + rest
  {
  }

  /** One unfolding of the capture group at an opening quote. */
  lemma FieldLengthAtQuote(t: string, k: nat)
    requires |t| > 0 && t[0] == '"' && QuotedTail(t[1..]) == Some(k)
    ensures FieldLength(t) == 1 + k
  {
  }

  /** A comma and a quoted field with a paired body form one later match. */
  lemma LaterTokensOfQuoted(b: string, q: string, rest: string)
    requires PairedQuotes(b) && q == ",\"" + b + "\""
    requires |rest| == 0 || rest[0] == ','
    ensures LaterTokens(q + rest) == [q] + LaterTokens(rest)
  {
    var field := "\"" + b + "\"" + rest;
    var t := q + rest;
    var n := |b| + 3;
    assert t[0] == ',' && t[1..] == field;
    assert FieldLength(field) == |b| + 2 by {
      FieldLengthOfQuoted(b, rest);
    }
    assert t[..n] == q && t[n..] == rest;
    LaterTokensAtComma(t, n);
  }

  /** One unfolding of the later-match scan at a comma. */
  lemma LaterTokensAtComma(t: string, n: nat)
    requires |t| > 0 && t[0] == ',' && n == 1 + FieldLength(t[1..])
    ensures LaterTokens(t) == [t[..n]] + LaterTokens(t[n..])
  {
  }

  /** What export requires of an entry for import to read it back. */
  predicate Exportable(e: Entry) {
    && IsDbDate(e.date)
    && NoBackslashN(e.content)
    && '"' !in e.createdAt && NoNewline(e.createdAt)
    && '"' !in e.updatedAt && NoNewline(e.updatedAt)
  }

  /** A well-formed date holds no quote, backslash or line feed. */
  lemma DateHasNoQuoteOrBackslash(date: string)
    requires IsDbDate(date)
    ensures '"' !in date && '\\' !in date && NoNewline(date)
  {
    forall i | 0 <= i < |date| ensures date[i] != '"' && date[i] != '\\' && date[i] != '\n' {
      assert i < 10;
    }
  }

  /** The last two fields of a row: two later matches. */
  lemma LaterTokensOfTwoFields(f3: string, f4: string, q3: string, q4: string)
    requires PairedQuotes(f3) && PairedQuotes(f4)
    requires q3 == ",\"" + f3 + "\"" && q4 == ",\"" + f4 + "\""
    ensures LaterTokens(q3 + q4) == [q3, q4]
  {
    assert LaterTokens(q4) == [q4] by {
      LaterTokensOfQuoted(f4, q4, "");
      assert q4 + "" == q4;
    }
    LaterTokensOfQuoted(f3, q3, q4);
  }

  /** The three fields after the first: three later matches. */
  lemma LaterTokensOfFields(f2: string, f3: string, f4: string, q2: string, q3: string, q4: string)
    requires PairedQuotes(f2) && PairedQuotes(f3) && PairedQuotes(f4)
    requires q2 == ",\"" + f2 + "\"" && q3 == ",\"" + f3 + "\"" && q4 == ",\"" + f4 + "\""
    ensures LaterTokens(q2 + (q3 + q4)) == [q2, q3, q4]
  {
    LaterTokensOfTwoFields(f3, f4, q3, q4);
    LaterTokensOfQuoted(f2, q2, q3 + q4);
  }

  /** A line that starts with a quoted field: the first match is that field. */
  lemma TokensOfQuotedLine(b: string, q: string, later: string)
    requires PairedQuotes(b) && q == "\"" + b + "\""
    requires |later| == 0 || later[0] == ','
    ensures Tokens(q + later) == [q] + LaterTokens(later)
  {
    var line := q + later;
    assert line == "\"" + b + "\"" + later;
    FieldLengthOfQuoted(b, later);
    assert line[..|q|] == q && line[|q|..] == later;
  }

  /** An exported row as its first field followed by the other three, each
      with its leading comma. */
  lemma ExportRowFields(e: Entry)
    ensures ExportRow(e) == ("\"" + e.date + "\"") + ((",\"" + EscapeContent(e.content) + "\"")
      + ((",\"" + e.createdAt + "\"") + (",\"" + e.updatedAt + "\"")))
  {
  }

  /** The tokenizer splits an exported row into its four quoted fields. */
  lemma TokensOfExportRow(e: Entry)
    requires '"' !in e.date && '"' !in e.createdAt && '"' !in e.updatedAt
    ensures Tokens(ExportRow(e)) == [
      "\"" + e.date + "\"",
      ",\"" + EscapeContent(e.content) + "\"",
      ",\"" + e.createdAt + "\"",
      ",\"" + e.updatedAt + "\""]
  {
    ExportRowFields(e);
    TokensOfFourFields(e.date, EscapeContent(e.content), e.createdAt, e.updatedAt);
  }

  /** Four quoted fields in a row, the first bare and the others after a
      comma, each with a paired body: four matches. */
  lemma TokensOfFourFields(d: string, c: string, t1: string, t2: string)
    requires PairedQuotes(c) && '"' !in d && '"' !in t1 && '"' !in t2
    ensures var q1, q2, q3, q4 := "\"" + d + "\"", ",\"" + c + "\"", ",\"" + t1 + "\"", ",\"" + t2 + "\"";
      Tokens(q1 + (q2 + (q3 + q4))) == [q1, q2, q3, q4]
  {
    var q1, q2, q3, q4 := "\"" + d + "\"", ",\"" + c + "\"", ",\"" + t1 + "\"", ",\"" + t2 + "\"";
    var later := q2 + (q3 + q4);
    FirstOfFourFields(d, q1, later);
    LaterOfFourFields(c, t1, t2);
    assert [q1] + [q2, q3, q4] == [q1, q2, q3, q4];
  }

  /** The first match of a row that opens with a quote-free quoted field. */
  lemma FirstOfFourFields(d: string, q1: string, later: string)
    requires '"' !in d && q1 == "\"" + d + "\""
    requires |later| == 0 || later[0] == ','
    ensures Tokens(q1 + later) == [q1] + LaterTokens(later)
  {
    QuoteFreeIsPaired(d);
    TokensOfQuotedLine(d, q1, later);
  }

  /** The three matches after the first field of a row. */
  lemma LaterOfFourFields(c: string, t1: string, t2: string)
    requires PairedQuotes(c) && '"' !in t1 && '"' !in t2
    ensures var q2, q3, q4 := ",\"" + c + "\"", ",\"" + t1 + "\"", ",\"" + t2 + "\"";
      LaterTokens(q2 + (q3 + q4)) == [q2, q3, q4]
  {
    QuoteFreeIsPaired(t1);
    QuoteFreeIsPaired(t2);
    LaterTokensOfFields(c, t1, t2, ",\"" + c + "\"", ",\"" + t1 + "\"", ",\"" + t2 + "\"");
  }

  /** An exported record is one physical line exactly when the date and the
      two timestamps hold no line feed: the escaped content never does. */
  lemma ExportRowIsOneLine(e: Entry)
    ensures NoNewline(ExportRow(e)) <==> NoNewline(e.date) && NoNewline(e.createdAt) && NoNewline(e.updatedAt)
  {
    ExportRowFields(e);
  }

  /** The exported document splits into the header and one line per entry,
      in the order the entries were given. */
  lemma ExportDocumentLines(entries: seq<Entry>)
    requires |entries| > 0
    requires forall i :: 0 <= i < |entries| ==>
      NoNewline(entries[i].date) && NoNewline(entries[i].createdAt) && NoNewline(entries[i].updatedAt)
    ensures SplitLines(ExportDocument(entries).value) == [Header] + ExportRows(entries)
  {
    var lines := [Header] + ExportRows(entries);
    assert forall i :: 0 <= i < |lines| ==> NoNewline(lines[i]) by {
      forall i | 0 <= i < |lines| ensures NoNewline(lines[i]) {
        if i > 0 {
          ExportRowIsOneLine(entries[i - 1]);
        }
      }
    }
    SplitJoin(lines);
  }
}

=== FILE: csv_import.dfy ===
/** The import loop of the data-management screen: split the document on
    line feeds, skip the header line, and for every other line trim it,
    skip it when blank, take it apart, check the date and upsert the entry,
    counting imported lines and failed lines.

    Every save needs a fresh id and the current time; `stamps(i)` supplies
    them for the save of line `i`. */
module CsvImport {
  import opened Text
  import opened EntryStore
  import opened Csv

  /** What the loop body decides about one line. */
  datatype LineVerdict = Blank | TooFewFields | BadDate | Accepted(date: string, content: string)

  /** The body of the loop for one physical line, short of the save. */
  function ParseLine(raw: string): (v: LineVerdict)
    ensures v.Blank? <==> AllTrimmable(raw)
    ensures v.TooFewFields? <==> !AllTrimmable(raw) && |Tokens(Trim(raw))| < 4
    ensures v.BadDate? <==> (!AllTrimmable(raw) && |Tokens(Trim(raw))| >= 4
      && !IsDbDate(CleanValue(Tokens(Trim(raw))[0])))
    ensures v.Accepted? ==> (IsDbDate(v.date)
      && v.date == CleanValue(Tokens(Trim(raw))[0]) && v.content == CleanValue(Tokens(Trim(raw))[1]))
  {
    var line := Trim(raw);
    if |line| == 0 then Blank
    else
      var matches := Tokens(line);
      if |matches| < 4 then TooFewFields
      else
        var date := CleanValue(matches[0]);
        var content := CleanValue(matches[1]);
        if !IsDbDate(date) then BadDate else Accepted(date, content)
  }

  /** The id `Crypto.randomUUID` would return and the time `new Date()`
      would read at one save. */
  datatype Stamp = Stamp(id: string, now: string)

  /** The loop's running state: the two counters and the store. */
  datatype ImportState = ImportState(imported: nat, errors: nat, store: Store)

  /** The verdict on every line, in order; the loop then works through these. */
  function Verdicts(lines: seq<string>): (vs: seq<LineVerdict>)
    ensures |vs| == |lines|
  {
    if |lines| == 0 then [] else [ParseLine(lines[0])] + Verdicts(lines[1..])
  }

  lemma {:induction false} VerdictAt(lines: seq<string>, k: nat)
    requires k < |lines|
    ensures Verdicts(lines)[k] == ParseLine(lines[k])
    decreases k
  {
    if k > 0 {
      VerdictAt(lines[1..], k - 1);
    }
  }

  /** One iteration: a blank line changes nothing, a rejected line only
      counts an error, an accepted line is saved and counted. */
  function ImportLine(st: ImportState, v: LineVerdict, stamp: Stamp): (r: ImportState)
    ensures v.Blank? ==> r == st
    ensures !v.Blank? ==> r.imported + r.errors == st.imported + st.errors + 1
    ensures !v.Accepted? ==> r.imported == st.imported && r.store == st.store
    ensures v.Accepted? ==> (r.imported == st.imported + 1 && r.errors == st.errors
      && r.store == SaveEntry(st.store, v.date, v.content, stamp.id, stamp.now))
  {
    match v
    case Blank => st
    case TooFewFields => st.(errors := st.errors + 1)
    case BadDate => st.(errors := st.errors + 1)
    case Accepted(date, content) =>
      ImportState(st.imported + 1, st.errors, SaveEntry(st.store, date, content, stamp.id, stamp.now))
  }

  /** The loop from line `i` to the end. Past the last line it does
      nothing; the counters only grow; and lines none of which is accepted
      save nothing and import nothing. */
  function ImportFrom(vs: seq<LineVerdict>, i: nat, st: ImportState, stamps: nat -> Stamp): (r: ImportState)
    ensures i >= |vs| ==> r == st
    ensures r.imported >= st.imported && r.errors >= st.errors
    ensures NoneAcceptedFrom(vs, i) ==> r.store == st.store && r.imported == st.imported
    decreases |vs| - i
  {
    if i >= |vs| then st
    else ImportFrom(vs, i + 1, ImportLine(st, vs[i], stamps(i)), stamps)
  }

  /** No line from `i` on is accepted. */
  predicate NoneAcceptedFrom(vs: seq<LineVerdict>, i: nat) {
    forall k :: i <= k < |vs| ==> !vs[k].Accepted?
  }

  /** The result of an import. */
  datatype ImportOutcome = InvalidFile | Finished(imported: nat, errors: nat, store: Store)

  /** `handleImportData` once the file has been read. A document without a
      line feed is rejected before anything is saved. */
  function ImportDocument(text: string, store: Store, stamps: nat -> Stamp): (r: ImportOutcome)
    ensures r.InvalidFile? <==> NoNewline(text)
  {
    var lines := SplitLines(text);
    if |lines| < 2 then InvalidFile
    else
      var st := ImportFrom(Verdicts(lines), 1, ImportState(0, 0, store), stamps);
      Finished(st.imported, st.errors, st.store)
  }

  /** The loop as the screen writes it. Reading a line has no effect on the
      store, so every line is read first and the loop then applies the
      verdicts in file order, one save or one counter step per line. */
  method HandleImport(text: string, store: Store, stamps: nat -> Stamp) returns (r: ImportOutcome)
    ensures r == ImportDocument(text, store, stamps)
    ensures r.Finished? ==> r.imported + r.errors == NonBlankLines(SplitLines(text)[1..])
  {
    var lines := SplitLines(text);
    if |lines| < 2 {
      return InvalidFile;
    }
    var vs := Verdicts(lines);
    ghost var goal := ImportFrom(vs, 1, ImportState(0, 0, store), stamps);
    var importedCount: nat := 0;
    var errorCount: nat := 0;
    var current := store;
    var i := 1;
    while i < |lines|
      invariant 1 <= i <= |lines|
      invariant ImportFrom(vs, i, ImportState(importedCount, errorCount, current), stamps) == goal
      invariant importedCount + errorCount == NonBlankCount(vs[1..i])
      decreases |lines| - i
    {
      ghost var before := ImportState(importedCount, errorCount, current);
      var verdict := vs[i];
      match verdict {
        case Blank =>
        case TooFewFields =>
          errorCount := errorCount + 1;
        case BadDate =>
          errorCount := errorCount + 1;
        case Accepted(date, content) =>
          current := SaveEntry(current, date, content, stamps(i).id, stamps(i).now);
          importedCount := importedCount + 1;
      }
      ImportLoopStep(vs, i, before, ImportState(importedCount, errorCount, current), stamps);
      i := i + 1;
    }
    assert vs[1..i] == vs[1..];
    CountAfterHeader(lines);
    r := Finished(importedCount, errorCount, current);
  }

  /** The verdicts after the header count the non-blank lines after it. */
  lemma CountAfterHeader(lines: seq<string>)
    requires |lines| >= 1
    ensures NonBlankCount(Verdicts(lines)[1..]) == NonBlankLines(lines[1..])
  {
    assert Verdicts(lines)[1..] == Verdicts(lines[1..]);
    NonBlankCountOfLines(lines[1..]);
  }

  /** One turn of the loop: the fold advances by one line, and the two
      counters together grow by one exactly when the line is not blank. */
  lemma ImportLoopStep(vs: seq<LineVerdict>, i: nat, before: ImportState, after: ImportState, stamps: nat -> Stamp)
    requires 1 <= i < |vs|
    requires after == ImportLine(before, vs[i], stamps(i))
    ensures ImportFrom(vs, i + 1, after, stamps) == ImportFrom(vs, i, before, stamps)
    ensures before.imported + before.errors == NonBlankCount(vs[1..i])
      ==> after.imported + after.errors == NonBlankCount(vs[1..i + 1])
  {
    NonBlankCountStep(vs, i);
  }

  // ---------------------------------------------------------------------
  // Counting
  // ---------------------------------------------------------------------

  /** Lines that are not blank after trimming. */
  function NonBlankCount(vs: seq<LineVerdict>): nat
  {
    if |vs| == 0 then 0
    else (if vs[|vs| - 1].Blank? then 0 else 1) + NonBlankCount(vs[..|vs| - 1])
  }

  lemma NonBlankCountSnoc(vs: seq<LineVerdict>, v: LineVerdict)
    ensures NonBlankCount(vs + [v]) == NonBlankCount(vs) + (if v.Blank? then 0 else 1)
  {
    assert (vs + [v])[..|vs|] == vs;
  }

  lemma NonBlankCountStep(vs: seq<LineVerdict>, i: nat)
    requires 1 <= i < |vs|
    ensures NonBlankCount(vs[1..i + 1]) == NonBlankCount(vs[1..i]) + (if vs[i].Blank? then 0 else 1)
  {
    NonBlankCountSnoc(vs[1..i], vs[i]);
    assert vs[1..i + 1] == vs[1..i] + [vs[i]];
  }

  lemma {:induction false} NonBlankCountCons(v: LineVerdict, vs: seq<LineVerdict>)
    ensures NonBlankCount([v] + vs) == (if v.Blank? then 0 else 1) + NonBlankCount(vs)
    decreases |vs|
  {
    if |vs| > 0 {
      var init := vs[..|vs| - 1];
      NonBlankCountCons(v, init);
      assert ([v] + vs)[..|vs|] == [v] + init;
    } else {
      assert [v] + vs == [v];
      assert [v][..0] == [];
    }
  }

  /** Every non-blank line after the header counts exactly once, as an
      import or as an error; blank lines count nowhere, and a failing line
      does not stop the loop. */
  lemma {:induction false} ImportCounts(vs: seq<LineVerdict>, i: nat, st: ImportState, stamps: nat -> Stamp)
    requires i <= |vs|
    ensures var r := ImportFrom(vs, i, st, stamps);
      r.imported + r.errors == st.imported + st.errors + NonBlankCount(vs[i..])
    decreases |vs| - i
  {
    if i < |vs| {
      ImportCounts(vs, i + 1, ImportLine(st, vs[i], stamps(i)), stamps);
      NonBlankCountCons(vs[i], vs[i + 1..]);
      assert vs[i..] == [vs[i]] + vs[i + 1..];
    } else {
      assert vs[i..] == [];
    }
  }

  /** Lines that hold something besides whitespace. */
  function NonBlankLines(lines: seq<string>): nat
  {
    if |lines| == 0 then 0
    else (if AllTrimmable(lines[0]) then 0 else 1) + NonBlankLines(lines[1..])
  }

  /** The verdicts count exactly the lines that are not blank after trimming. */
  lemma {:induction false} NonBlankCountOfLines(lines: seq<string>)
    ensures NonBlankCount(Verdicts(lines)) == NonBlankLines(lines)
    decreases |lines|
  {
    if |lines| > 0 {
      NonBlankCountOfLines(lines[1..]);
      NonBlankCountCons(ParseLine(lines[0]), Verdicts(lines[1..]));
    }
  }

  /** When every line is accepted, every line is imported and nothing fails. */
  lemma {:induction false} ImportAllAccepted(vs: seq<LineVerdict>, i: nat, st: ImportState, stamps: nat -> Stamp)
    requires i <= |vs|
    requires forall k :: i <= k < |vs| ==> vs[k].Accepted?
    ensures var r := ImportFrom(vs, i, st, stamps);
      r.imported == st.imported + (|vs| - i) && r.errors == st.errors
    decreases |vs| - i
  {
    if i < |vs| {
      var next := ImportLine(st, vs[i], stamps(i));
      assert next.imported == st.imported + 1 && next.errors == st.errors by {
        assert vs[i].Accepted?;
      }
      ImportAllAccepted(vs, i + 1, next, stamps);
    }
  }

  // ---------------------------------------------------------------------
  // The header line
  // ---------------------------------------------------------------------

  /** The loop never looks in front of its starting line. */
  lemma {:induction false} ImportFromReadsSuffix(vs1: seq<LineVerdict>, vs2: seq<LineVerdict>, i: nat, st: ImportState, stamps: nat -> Stamp)
    requires i <= |vs1| && i <= |vs2| && vs1[i..] == vs2[i..]
    ensures ImportFrom(vs1, i, st, stamps) == ImportFrom(vs2, i, st, stamps)
    decreases |vs1| - i
  {
    if i < |vs1| {
      assert vs1[i] == vs1[i..][0] == vs2[i..][0] == vs2[i];
      assert vs1[i + 1..] == vs1[i..][1..];
      assert vs2[i + 1..] == vs2[i..][1..];
      ImportFromReadsSuffix(vs1, vs2, i + 1, ImportLine(st, vs1[i], stamps(i)), stamps);
    }
  }

  /** Whatever the first line says, the import is the same: the header is
      discarded unread. */
  lemma HeaderIsIgnored(h1: string, h2: string, body: string, store: Store, stamps: nat -> Stamp)
    requires NoNewline(h1) && NoNewline(h2)
    ensures ImportDocument(h1 + "\n" + body, store, stamps) == ImportDocument(h2 + "\n" + body, store, stamps)
  {
    SplitAfterLine(h1, body);
    SplitAfterLine(h2, body);
    var l1, l2 := SplitLines(h1 + "\n" + body), SplitLines(h2 + "\n" + body);
    assert l1[1..] == SplitLines(body) == l2[1..];
    var vs1, vs2 := Verdicts(l1), Verdicts(l2);
    assert vs1[1..] == Verdicts(SplitLines(body)) == vs2[1..];
    ImportFromReadsSuffix(vs1, vs2, 1, ImportState(0, 0, store), stamps);
  }

  // ---------------------------------------------------------------------
  // What ends up in the store
  // ---------------------------------------------------------------------

  /** The store seen as date to content. */
  function Contents(store: Store): map<string, string> {
    map d | d in store :: store[d].content
  }

  /** The effect of one verdict on the date-to-content view. */
  function Apply(v: LineVerdict, m: map<string, string>): map<string, string> {
    match v
    case Accepted(date, content) => m[date := content]
    case _ => m
  }

  /** A reference for the store an import produces: every accepted line, in
      file order, overwrites its date. */
  function Overlay(vs: seq<LineVerdict>, m: map<string, string>): map<string, string>
    decreases |vs|
  {
    if |vs| == 0 then m else Overlay(vs[1..], Apply(vs[0], m))
  }

  predicate SetsDate(v: LineVerdict, date: string) {
    v.Accepted? && v.date == date
  }

  lemma SaveContents(store: Store, date: string, content: string, freshId: string, now: string)
    ensures Contents(SaveEntry(store, date, content, freshId, now)) == Contents(store)[date := content]
  {
  }

  /** The import fold agrees with the reference on dates and contents. */
  lemma {:induction false} ImportMatchesOverlay(vs: seq<LineVerdict>, i: nat, st: ImportState, stamps: nat -> Stamp)
    requires i <= |vs|
    ensures Contents(ImportFrom(vs, i, st, stamps).store) == Overlay(vs[i..], Contents(st.store))
    decreases |vs| - i
  {
    if i < |vs| {
      var next := ImportLine(st, vs[i], stamps(i));
      ImportMatchesOverlay(vs, i + 1, next, stamps);
      assert vs[i..][1..] == vs[i + 1..];
      assert vs[i..][0] == vs[i];
      if vs[i].Accepted? {
        SaveContents(st.store, vs[i].date, vs[i].content, stamps(i).id, stamps(i).now);
      }
      assert Contents(next.store) == Apply(vs[i], Contents(st.store));
    } else {
      assert vs[i..] == [];
    }
  }

  /** A date no line sets keeps what it had. */
  lemma {:induction false} OverlayUntouched(vs: seq<LineVerdict>, m: map<string, string>, date: string)
    requires forall k :: 0 <= k < |vs| ==> !SetsDate(vs[k], date)
    ensures date in Overlay(vs, m) <==> date in m
    ensures date in m ==> Overlay(vs, m)[date] == m[date]
    decreases |vs|
  {
    if |vs| > 0 {
      assert !SetsDate(vs[0], date);
      assert forall k :: 0 <= k < |vs[1..]| ==> !SetsDate(vs[1..][k], date) by {
        forall k | 0 <= k < |vs[1..]| ensures !SetsDate(vs[1..][k], date) {
          assert vs[1..][k] == vs[k + 1];
        }
      }
      OverlayUntouched(vs[1..], Apply(vs[0], m), date);
    }
  }

  /** When two lines share a date, the later one wins: the value of a date
      is the content of the last accepted line that carries it. */
  lemma {:induction false} LastLineWins(vs: seq<LineVerdict>, m: map<string, string>, j: nat)
    requires j < |vs| && vs[j].Accepted?
    requires forall k :: j < k < |vs| ==> !SetsDate(vs[k], vs[j].date)
    ensures vs[j].date in Overlay(vs, m) && Overlay(vs, m)[vs[j].date] == vs[j].content
    decreases |vs|
  {
    var v := vs[j];
    var m' := Apply(vs[0], m);
    if j == 0 {
      assert forall k :: 0 <= k < |vs[1..]| ==> !SetsDate(vs[1..][k], v.date) by {
        forall k | 0 <= k < |vs[1..]| ensures !SetsDate(vs[1..][k], v.date) {
          assert vs[1..][k] == vs[k + 1];
        }
      }
      OverlayUntouched(vs[1..], m', v.date);
    } else {
      assert vs[1..][j - 1] == vs[j];
      assert forall k :: j - 1 < k < |vs[1..]| ==> !SetsDate(vs[1..][k], v.date) by {
        forall k | j - 1 < k < |vs[1..]| ensures !SetsDate(vs[1..][k], v.date) {
          assert vs[1..][k] == vs[k + 1];
        }
      }
      LastLineWins(vs[1..], m', j - 1);
    }
  }

  /** Dates set by accepted lines. */
  function AcceptedDates(vs: seq<LineVerdict>): set<string> {
    set k | 0 <= k < |vs| && vs[k].Accepted? :: vs[k].date
  }

  /** The reference adds exactly the dates of the accepted lines. */
  lemma {:induction false} OverlayKeys(vs: seq<LineVerdict>, m: map<string, string>)
    ensures Overlay(vs, m).Keys == m.Keys + AcceptedDates(vs)
    decreases |vs|
  {
    if |vs| > 0 {
      OverlayKeys(vs[1..], Apply(vs[0], m));
      var head: set<string> := if vs[0].Accepted? then {vs[0].date} else {};
      assert Apply(vs[0], m).Keys == m.Keys + head;
      assert AcceptedDates(vs) == head + AcceptedDates(vs[1..]) by {
        forall d | d in AcceptedDates(vs) ensures d in head + AcceptedDates(vs[1..]) {
          var k :| 0 <= k < |vs| && vs[k].Accepted? && vs[k].date == d;
          if k > 0 {
            assert vs[1..][k - 1] == vs[k];
          }
        }
        forall d | d in AcceptedDates(vs[1..]) ensures d in AcceptedDates(vs) {
          var k :| 0 <= k < |vs[1..]| && vs[1..][k].Accepted? && vs[1..][k].date == d;
          assert vs[1..][k] == vs[k + 1];
        }
      }
    } else {
      assert AcceptedDates(vs) == {};
    }
  }

  // ---------------------------------------------------------------------
  // Ids stay unique
  // ---------------------------------------------------------------------

  /** Stamps for lines `i` onwards carry ids that are new to the store and
      to one another, as random UUIDs are taken to be. */
  predicate FreshStamps(n: nat, i: nat, store: Store, stamps: nat -> Stamp) {
    && (forall k :: i <= k < n ==> stamps(k).id !in Ids(store))
    && (forall k1, k2 :: i <= k1 < k2 < n ==> stamps(k1).id != stamps(k2).id)
  }

  /** With fresh ids, an import keeps ids unique. */
  lemma {:induction false} ImportKeepsIdsUnique(vs: seq<LineVerdict>, i: nat, st: ImportState, stamps: nat -> Stamp)
    requires UniqueIds(st.store) && FreshStamps(|vs|, i, st.store, stamps)
    ensures UniqueIds(ImportFrom(vs, i, st, stamps).store)
    decreases |vs| - i
  {
    if i < |vs| {
      var next := ImportLine(st, vs[i], stamps(i));
      if vs[i].Accepted? {
        SaveKeepsIdsUnique(st.store, vs[i].date, vs[i].content, stamps(i).id, stamps(i).now);
      }
      assert Ids(next.store) <= Ids(st.store) + {stamps(i).id};
      ImportKeepsIdsUnique(vs, i + 1, next, stamps);
    }
  }

  // ---------------------------------------------------------------------
  // Export, then import
  // ---------------------------------------------------------------------

  /** An exported row is read back as the entry's date and content. */
  lemma ParseExportRow(e: Entry)
    requires Exportable(e)
    ensures ParseLine(ExportRow(e)) == Accepted(e.date, e.content)
  {
    QuotedLineIsTrimmed(ExportRow(e));
    ExportRowReadsBack(e);
  }

  /** The matches `ParseLine` looks at, on an exported row: four of them,
      the first two cleaning to the entry's date and content. */
  lemma ExportRowReadsBack(e: Entry)
    requires Exportable(e)
    ensures var ts := Tokens(ExportRow(e));
      |ts| == 4 && CleanValue(ts[0]) == e.date && CleanValue(ts[1]) == e.content
  {
    DateHasNoQuoteOrBackslash(e.date);
    TokensOfExportRow(e);
    CleanExportedDate(e.date);
    CleanExportedContent(e.content);
  }

  /** A line that opens and closes with a quote has nothing to trim. */
  lemma QuotedLineIsTrimmed(row: string)
    requires |row| >= 2 && row[0] == '"' && row[|row| - 1] == '"'
    ensures !AllTrimmable(row) && Trim(row) == row
  {
    assert !IsTrimmable(row[0]);
  }

  /** Exporting entries with distinct, well-formed dates, content without a
      literal backslash-`n` and timestamps without quotes or line feeds (the
      shape `toISOString` gives), then importing the document, restores
      every entry's content under its date, imports one line per entry with
      no error, and adds no other date. */
  lemma ExportImportRoundTrip(entries: seq<Entry>, store: Store, stamps: nat -> Stamp)
    requires |entries| > 0
    requires forall k :: 0 <= k < |entries| ==> Exportable(entries[k])
    requires forall k1, k2 :: 0 <= k1 < k2 < |entries| ==> entries[k1].date != entries[k2].date
    ensures var r := ImportDocument(ExportDocument(entries).value, store, stamps);
      && r.Finished? && r.imported == |entries| && r.errors == 0
      && r.store.Keys == store.Keys + (set k | 0 <= k < |entries| :: entries[k].date)
      && forall k :: 0 <= k < |entries| ==> r.store[entries[k].date].content == entries[k].content
  {
    var doc := ExportDocument(entries).value;
    var lines := SplitLines(doc);
    assert lines == [Header] + ExportRows(entries) by {
      forall k | 0 <= k < |entries|
        ensures NoNewline(entries[k].date) && NoNewline(entries[k].createdAt) && NoNewline(entries[k].updatedAt)
      {
        DateHasNoQuoteOrBackslash(entries[k].date);
      }
      ExportDocumentLines(entries);
    }
    var vs := Verdicts(lines);
    assert forall k :: 1 <= k < |vs| ==> vs[k] == Accepted(entries[k - 1].date, entries[k - 1].content) by {
      forall k | 1 <= k < |vs| ensures vs[k] == Accepted(entries[k - 1].date, entries[k - 1].content) {
        assert lines[k] == ExportRow(entries[k - 1]);
        VerdictAt(lines, k);
        ParseExportRow(entries[k - 1]);
      }
    }
    ImportFromRestores(vs, entries, store, stamps);
  }

  /** The accepted lines a document of distinct exported rows reads as. */
  predicate ReadsAsEntries(vs: seq<LineVerdict>, entries: seq<Entry>) {
    && |vs| == |entries| + 1
    && (forall k :: 1 <= k < |vs| ==> vs[k] == Accepted(entries[k - 1].date, entries[k - 1].content))
    && (forall k1, k2 :: 0 <= k1 < k2 < |entries| ==> entries[k1].date != entries[k2].date)
  }

  lemma AcceptedDatesOfEntries(vs: seq<LineVerdict>, entries: seq<Entry>)
    requires ReadsAsEntries(vs, entries)
    ensures AcceptedDates(vs[1..]) == set k | 0 <= k < |entries| :: entries[k].date
  {
    var rows := vs[1..];
    forall d | d in AcceptedDates(rows) ensures d in set k | 0 <= k < |entries| :: entries[k].date {
      var k :| 0 <= k < |rows| && rows[k].Accepted? && rows[k].date == d;
      assert rows[k] == vs[k + 1];
    }
    forall k | 0 <= k < |entries| ensures entries[k].date in AcceptedDates(rows) {
      assert rows[k] == vs[k + 1];
    }
  }

  lemma OverlayOfEntries(vs: seq<LineVerdict>, entries: seq<Entry>, m: map<string, string>)
    requires ReadsAsEntries(vs, entries)
    ensures forall k :: 0 <= k < |entries| ==>
      entries[k].date in Overlay(vs[1..], m) && Overlay(vs[1..], m)[entries[k].date] == entries[k].content
  {
    var rows := vs[1..];
    forall k | 0 <= k < |entries|
      ensures entries[k].date in Overlay(rows, m) && Overlay(rows, m)[entries[k].date] == entries[k].content
    {
      assert rows[k] == vs[k + 1];
      forall k' | k < k' < |rows| ensures !SetsDate(rows[k'], rows[k].date) {
        assert rows[k'] == vs[k' + 1];
      }
      LastLineWins(rows, m, k);
    }
  }

  /** The round trip once the lines have been read back. */
  lemma ImportFromRestores(vs: seq<LineVerdict>, entries: seq<Entry>, store: Store, stamps: nat -> Stamp)
    requires ReadsAsEntries(vs, entries)
    ensures var r := ImportFrom(vs, 1, ImportState(0, 0, store), stamps);
      && r.imported == |entries| && r.errors == 0
      && r.store.Keys == store.Keys + (set k | 0 <= k < |entries| :: entries[k].date)
      && forall k :: 0 <= k < |entries| ==> r.store[entries[k].date].content == entries[k].content
  {
    var init := ImportState(0, 0, store);
    var st := ImportFrom(vs, 1, init, stamps);
    ImportAllAccepted(vs, 1, init, stamps);
    ImportMatchesOverlay(vs, 1, init, stamps);
    OverlayKeys(vs[1..], Contents(store));
    AcceptedDatesOfEntries(vs, entries);
    OverlayOfEntries(vs, entries, Contents(store));
    assert Contents(st.store).Keys == st.store.Keys;
  }
}

=== FILE: entry_store.dfy ===
/** The journal table `gratitude_entries` and its five operations: lookup by
    date, the full listing newest first, the upsert on date, and the two
    deletes.

    The table has `id TEXT PRIMARY KEY` and `date TEXT NOT NULL UNIQUE`, so
    the store maps each date to the rest of its row: at most one entry per
    date holds by construction, and unique ids are the invariant `UniqueIds`.
    The random UUID and the wall clock are parameters (`freshId`, `now`). */
module EntryStore {
  import opened Wrappers
  import opened Text

  /** A `GratitudeEntry` as the store hands it out. */
  datatype Entry = Entry(id: string, date: string, content: string, createdAt: string, updatedAt: string)

  /** One row of the table without its date column, which is the key. */
  datatype Row = Row(id: string, content: string, createdAt: string, updatedAt: string)

  type Store = map<string, Row>

  function EntryAt(store: Store, date: string): (e: Entry)
    requires date in store
    ensures e.date == date
  {
    var row := store[date];
    Entry(row.id, date, row.content, row.createdAt, row.updatedAt)
  }

  function Ids(store: Store): set<string> {
    set d | d in store :: store[d].id
  }

  /** The primary key: no two dates share an id. */
  predicate UniqueIds(store: Store) {
    forall d1, d2 :: d1 in store && d2 in store && d1 != d2 ==> store[d1].id != store[d2].id
  }

  /** `getEntryByDate`: the row whose date matches exactly, if any. */
  function GetEntryByDate(store: Store, date: string): (r: Option<Entry>)
    ensures r.Some? <==> date in store
    ensures r.Some? ==> (r.value.date == date && r.value.id == store[date].id
      && r.value.content == store[date].content
      && r.value.createdAt == store[date].createdAt && r.value.updatedAt == store[date].updatedAt)
  {
    if date in store then Some(EntryAt(store, date)) else None
  }

  /** `saveEntry`: an upsert on date. An existing row gets the new content and
      `updated_at = now` and keeps its id and `created_at`; otherwise a row
      with the fresh id and both timestamps `now` is inserted. */
  function SaveEntry(store: Store, date: string, content: string, freshId: string, now: string): (r: Store)
    ensures r.Keys == store.Keys + {date}
    ensures r[date].content == content && r[date].updatedAt == now
    ensures date in store ==> r[date].id == store[date].id && r[date].createdAt == store[date].createdAt
    ensures date !in store ==> r[date].id == freshId && r[date].createdAt == now
    ensures forall d :: d in store && d != date ==> r[d] == store[d]
    ensures Ids(r) <= Ids(store) + {freshId}
  {
    var row := if date in store then store[date].(content := content, updatedAt := now)
               else Row(freshId, content, now, now);
    var r := store[date := row];
    assert Ids(r) <= Ids(store) + {freshId} by {
      forall id | id in Ids(r) ensures id in Ids(store) + {freshId} {
        var d :| d in r && r[d].id == id;
        if d != date {
          assert store[d].id == id;
        }
      }
    }
    r
  }

  /** `deleteEntry`: removes the row for `date`; nothing happens when there is none. */
  function DeleteEntry(store: Store, date: string): (r: Store)
    ensures r.Keys == store.Keys - {date}
    ensures forall d :: d in r ==> r[d] == store[d]
    ensures date !in store ==> r == store
  {
    store - {date}
  }

  /** `deleteAllEntries`: a single unconditional DELETE. */
  function DeleteAllEntries(store: Store): (r: Store)
    ensures forall d :: GetEntryByDate(r, d).None?
  {
    map[]
  }

  /** Strictly descending by date: the order of `ORDER BY date DESC` on distinct dates. */
  predicate SortedDesc(dates: seq<string>) {
    forall i, j :: 0 <= i < j < |dates| ==> StrLess(dates[j], dates[i])
  }

  /** Puts `x` into a descending list at the place the order asks for. */
  function InsertDesc(x: string, dates: seq<string>): (r: seq<string>)
    requires SortedDesc(dates) && x !in dates
    ensures |r| == |dates| + 1
    ensures forall y :: y in r <==> y == x || y in dates
    ensures SortedDesc(r)
  {
    if |dates| == 0 then [x]
    else if StrLess(dates[0], x) then
      assert SortedDesc([x] + dates) by {
        forall j | 0 <= j < |dates| ensures StrLess(dates[j], x) {
          if j > 0 {
            StrLessTransitive(dates[j], dates[0], x);
          }
        }
      }
      [x] + dates
    else
      StrLessTotal(dates[0], x);
      var tail := InsertDesc(x, dates[1..]);
      assert forall y :: y in tail ==> StrLess(y, dates[0]) by {
        forall y | y in tail ensures StrLess(y, dates[0]) {
          if y != x {
            var j :| 0 <= j < |dates[1..]| && dates[1..][j] == y;
            assert dates[j + 1] == y;
          }
        }
      }
      [dates[0]] + tail
  }

  function DatesOf(entries: seq<Entry>): seq<string> {
    seq(|entries|, i requires 0 <= i < |entries| => entries[i].date)
  }

  /** `getAllEntries`: every row exactly once, by date descending. */
  method GetAllEntries(store: Store) returns (entries: seq<Entry>)
    ensures |entries| == |store|
    ensures forall d :: d in store <==> d in DatesOf(entries)
    ensures forall i :: 0 <= i < |entries| ==> entries[i].date in store && entries[i] == EntryAt(store, entries[i].date)
    ensures SortedDesc(DatesOf(entries))
  {
    var pending := store.Keys;
    var dates: seq<string> := [];
    while pending != {}
      invariant pending <= store.Keys
      invariant forall d :: d in dates <==> d in store.Keys - pending
      invariant |dates| + |pending| == |store.Keys|
      invariant SortedDesc(dates)
      decreases |pending|
    {
      var d :| d in pending;
      dates := InsertDesc(d, dates);
      pending := pending - {d};
    }
    forall i | 0 <= i < |dates| ensures dates[i] in store {
      assert dates[i] in dates;
    }
    entries := seq(|dates|, i requires 0 <= i < |dates| => EntryAt(store, dates[i]));
    assert DatesOf(entries) == dates;
  }

  /** After a save, the lookup finds the saved content under that date. */
  lemma SaveThenGet(store: Store, date: string, content: string, freshId: string, now: string)
    ensures var e := GetEntryByDate(SaveEntry(store, date, content, freshId, now), date);
      e.Some? && e.value.date == date && e.value.content == content && e.value.updatedAt == now
  {
  }

  /** Saving a date that exists keeps its id, date and creation time and
      leaves every other date's entry as it was. */
  lemma SaveExistingKeepsIdentity(store: Store, date: string, content: string, freshId: string, now: string)
    requires date in store
    ensures var r := SaveEntry(store, date, content, freshId, now);
      && GetEntryByDate(r, date) == Some(Entry(store[date].id, date, content, store[date].createdAt, now))
      && |r| == |store|
      && forall d :: d != date ==> GetEntryByDate(r, d) == GetEntryByDate(store, d)
  {
  }

  /** Saving a new date inserts an entry with the fresh id, created and updated now. */
  lemma SaveNewInsertsFresh(store: Store, date: string, content: string, freshId: string, now: string)
    requires date !in store
    ensures var r := SaveEntry(store, date, content, freshId, now);
      && GetEntryByDate(r, date) == Some(Entry(freshId, date, content, now, now))
      && |r| == |store| + 1
  {
  }

  /** The primary key survives a save. Updating an existing date keeps its
      id; inserting a new one needs the generated id to be new. */
  lemma SaveKeepsIdsUnique(store: Store, date: string, content: string, freshId: string, now: string)
    requires UniqueIds(store) && (date !in store ==> freshId !in Ids(store))
    ensures UniqueIds(SaveEntry(store, date, content, freshId, now))
  {
  }

  /** Deleting one date or every date keeps the primary key. */
  lemma DeleteKeepsIdsUnique(store: Store, date: string)
    requires UniqueIds(store)
    ensures UniqueIds(DeleteEntry(store, date)) && UniqueIds(DeleteAllEntries(store))
  {
  }

  /** Saving the same date twice: the second save keeps what the first created. */
  lemma SaveTwiceKeepsCreation(store: Store, date: string, c1: string, c2: string, id1: string, id2: string, t1: string, t2: string)
    ensures var r1 := SaveEntry(store, date, c1, id1, t1);
      var r2 := SaveEntry(r1, date, c2, id2, t2);
      r2[date] == Row(r1[date].id, c2, r1[date].createdAt, t2) && r2.Keys == r1.Keys
  {
  }

  /** Deleting removes exactly that date and is a no-op when the date is absent. */
  lemma DeleteThenGet(store: Store, date: string)
    ensures GetEntryByDate(DeleteEntry(store, date), date).None?
    ensures forall d :: d != date ==> GetEntryByDate(DeleteEntry(store, date), d) == GetEntryByDate(store, d)
    ensures date !in store ==> DeleteEntry(store, date) == store
  {
  }

  /** A deleted entry comes back under the same date only as a new row. */
  lemma SaveAfterDeleteIsInsert(store: Store, date: string, content: string, freshId: string, now: string)
    ensures var e := GetEntryByDate(SaveEntry(DeleteEntry(store, date), date, content, freshId, now), date);
      e == Some(Entry(freshId, date, content, now, now))
  {
  }
}

=== FILE: reminders.dfy ===
/** The daily reminder: whether a delivered notification is presented, the
    set of scheduled notifications, and the permission decision.

    "Today" is the clock's date already formatted as `YYYY-MM-DD`; the
    notification service is a list of pending requests; the operating
    system's permission prompt is an oracle answer. */
module Reminders {
  import opened Wrappers
  import opened EntryStore

  // ---------------------------------------------------------------------
  // The foreground handler
  // ---------------------------------------------------------------------

  /** The five flags `handleNotification` returns. */
  datatype Presentation = Presentation(
    showAlert: bool, playSound: bool, setBadge: bool, showBanner: bool, showList: bool)

  /** `hasTodayEntry`: whether the journal holds an entry under today's date. */
  function HasTodayEntry(store: Store, today: string): (r: bool)
    ensures r <==> today in store
  {
    GetEntryByDate(store, today) != None
  }

  /** The handler's decision: stay silent once today has been written,
      present the reminder in full otherwise; never touch the badge. */
  function HandleNotification(store: Store, today: string): (p: Presentation)
    ensures !p.setBadge
    ensures p.showAlert == p.playSound == p.showBanner == p.showList
    ensures p.showAlert <==> today !in store
  {
    if HasTodayEntry(store, today) then Presentation(false, false, false, false, false)
    else Presentation(true, true, false, true, true)
  }

  /** Writing today's entry silences today's reminder. */
  lemma SavedTodayIsSilent(store: Store, today: string, content: string, freshId: string, now: string)
    ensures HandleNotification(SaveEntry(store, today, content, freshId, now), today)
      == Presentation(false, false, false, false, false)
  {
  }

  /** Deleting today's entry, or every entry, brings the reminder back. */
  lemma DeletedTodayRemindsAgain(store: Store, today: string)
    ensures HandleNotification(DeleteEntry(store, today), today) == Presentation(true, true, false, true, true)
    ensures HandleNotification(DeleteAllEntries(store), today) == Presentation(true, true, false, true, true)
  {
  }

  /** Entries for other days have no say in today's decision. */
  lemma OtherDaysDoNotMatter(store: Store, today: string, day: string, content: string, freshId: string, now: string)
    requires day != today
    ensures HandleNotification(SaveEntry(store, day, content, freshId, now), today) == HandleNotification(store, today)
    ensures HandleNotification(DeleteEntry(store, day), today) == HandleNotification(store, today)
  {
  }

  // ---------------------------------------------------------------------
  // Scheduling
  // ---------------------------------------------------------------------

  /** A calendar trigger: fires at `hour:minute`, every day when `repeats`. */
  datatype Trigger = Calendar(hour: int, minute: int, repeats: bool)

  /** What the notification shows and where a tap leads. */
  datatype Content = Content(title: string, body: string, sound: bool, screen: string)

  /** One pending notification request. */
  datatype Reminder = Reminder(content: Content, trigger: Trigger)

  /** The requests the notification service holds, in registration order. */
  type Scheduled = seq<Reminder>

  const GratitudeContent := Content(
    "Daily Gratitude Reminder \U{1F64F}",
    "Take a moment to reflect on what you're grateful for today.",
    true,
    "(tabs)")

  /** `cancelAllNotifications`: every pending request is withdrawn. */
  function CancelAllNotifications(scheduled: Scheduled): (r: Scheduled)
    ensures |r| == 0
  {
    []
  }

  /** What a scheduling call leaves behind, and whether it resolved or
      rejected. */
  datatype Attempt = Attempt(pending: Scheduled, succeeded: bool)

  /** `scheduleGratitudeNotification`: cancel everything, then register one
      daily repeating request at `hour:minute`, with no range check.
      `accepted` is the notification service's answer to the registration;
      when it refuses, the cancellation has already happened, so nothing is
      left scheduled and the call rejects. */
  function ScheduleGratitudeNotification(scheduled: Scheduled, hour: int, minute: int, accepted: bool): (r: Attempt)
    ensures r.succeeded <==> accepted
    ensures accepted ==> |r.pending| == 1 && r.pending[0] == Reminder(GratitudeContent, Calendar(hour, minute, true))
    ensures !accepted ==> |r.pending| == 0
  {
    var cleared := CancelAllNotifications(scheduled);
    if accepted then Attempt(cleared + [Reminder(GratitudeContent, Calendar(hour, minute, true))], true)
    else Attempt(cleared, false)
  }

  /** Cancelling twice is cancelling once. */
  lemma CancelIsIdempotent(scheduled: Scheduled)
    ensures CancelAllNotifications(CancelAllNotifications(scheduled)) == CancelAllNotifications(scheduled)
  {
  }

  /** Scheduling supersedes: what was pending before makes no difference,
      so scheduling again never stacks a second reminder. */
  lemma ScheduleSupersedes(s1: Scheduled, s2: Scheduled, h1: int, m1: int, a1: bool, h2: int, m2: int, a2: bool)
    ensures ScheduleGratitudeNotification(s1, h2, m2, a2) == ScheduleGratitudeNotification(s2, h2, m2, a2)
    ensures ScheduleGratitudeNotification(ScheduleGratitudeNotification(s1, h1, m1, a1).pending, h2, m2, a2)
      == ScheduleGratitudeNotification(s1, h2, m2, a2)
  {
  }

  /** A refused reschedule loses the reminder that was there: the old one
      is cancelled before the new one is asked for. */
  lemma RefusedRescheduleLeavesNone(scheduled: Scheduled, h1: int, m1: int, h2: int, m2: int)
    ensures var before := ScheduleGratitudeNotification(scheduled, h1, m1, true).pending;
      |before| == 1 && |ScheduleGratitudeNotification(before, h2, m2, false).pending| == 0
  {
  }

  // ---------------------------------------------------------------------
  // Permission
  // ---------------------------------------------------------------------

  /** The statuses the permission service reports. */
  datatype PermissionStatus = Granted | Denied | Undetermined

  /** Whether the user was asked, and the answer the function returns. */
  datatype PermissionOutcome = PermissionOutcome(prompted: bool, finalStatus: PermissionStatus, granted: bool)

  /** `requestNotificationPermissions`: ask only when the current status is
      not already granted; `answer` is what the prompt would return. The
      result is true exactly when the final status is granted. */
  function RequestNotificationPermissions(existing: PermissionStatus, answer: PermissionStatus): (r: PermissionOutcome)
    ensures r.prompted <==> existing != Granted
    ensures r.granted <==> r.finalStatus == Granted
    ensures r.granted <==> existing == Granted || answer == Granted
    ensures !r.prompted ==> r.finalStatus == existing
  {
    var finalStatus := if existing != Granted then answer else existing;
    PermissionOutcome(existing != Granted, finalStatus, finalStatus == Granted)
  }

  /** Once granted, asking again neither prompts nor changes the answer. */
  lemma GrantedIsStable(answer: PermissionStatus)
    ensures RequestNotificationPermissions(Granted, answer) == PermissionOutcome(false, Granted, true)
  {
  }
}

=== FILE: settings_store.dfy ===
/** The `settings` table and its two operations.

    The schema pins the primary key with `CHECK (id = 1)`, so the table holds
    at most one row: it is an `Option` of that row. Columns are SQLite
    INTEGERs; `enabled` is written as 1 or 0 and read back as `enabled === 1`. */
module SettingsStore {
  import opened Wrappers

  /** The stored row, id column left implicit (it can only be 1). */
  datatype SettingsRow = SettingsRow(enabled: int, hour: int, minute: int)

  /** The whole table: no row, or the id-1 row. */
  type SettingsTable = Option<SettingsRow>

  /** `NotificationSettings` as the store hands it out. */
  datatype NotificationSettings = NotificationSettings(id: int, enabled: bool, hour: int, minute: int)

  /** The row `getNotificationSettings` inserts into an empty table: the
      column defaults of the schema, reminders on at 8:00. */
  const DefaultRow := SettingsRow(1, 8, 0)

  /** A read may write (the first time), so it returns both. */
  datatype SettingsRead = SettingsRead(settings: NotificationSettings, table: SettingsTable)

  /** `getNotificationSettings`: on an empty table, insert the default row
      and return enabled at 8:00; otherwise convert the stored row. */
  function GetNotificationSettings(table: SettingsTable): (r: SettingsRead)
    ensures r.table.Some? && r.settings.id == 1
    ensures table.None? ==> (r.table == Some(DefaultRow)
      && r.settings == NotificationSettings(1, true, 8, 0))
    ensures table.Some? ==> (r.table == table
      && (r.settings.enabled <==> table.value.enabled == 1)
      && r.settings.hour == table.value.hour && r.settings.minute == table.value.minute)
  {
    match table
    case None => SettingsRead(NotificationSettings(1, true, 8, 0), Some(DefaultRow))
    case Some(row) => SettingsRead(NotificationSettings(1, row.enabled == 1, row.hour, row.minute), table)
  }

  /** `saveNotificationSettings`: `INSERT OR REPLACE` of the id-1 row with
      the flag as 1 or 0; hour and minute are stored as given, unchecked. */
  function SaveNotificationSettings(table: SettingsTable, enabled: bool, hour: int, minute: int): (r: SettingsTable)
    ensures r.Some? && r.value.hour == hour && r.value.minute == minute
    ensures r.value.enabled == 0 || r.value.enabled == 1
    ensures r.value.enabled == 1 <==> enabled
  {
    Some(SettingsRow(if enabled then 1 else 0, hour, minute))
  }

  /** A read after a save returns exactly what was saved, whatever the table
      held before, and the read itself writes nothing. */
  lemma SaveThenGet(table: SettingsTable, enabled: bool, hour: int, minute: int)
    ensures var saved := SaveNotificationSettings(table, enabled, hour, minute);
      GetNotificationSettings(saved) == SettingsRead(NotificationSettings(1, enabled, hour, minute), saved)
  {
  }

  /** The default is stored by the first read only: a second read sees the
      same values and leaves the table as the first read left it. */
  lemma GetTwice(table: SettingsTable)
    ensures var first := GetNotificationSettings(table);
      var second := GetNotificationSettings(first.table);
      second.settings == first.settings && second.table == first.table
  {
  }
}

=== FILE: text.dfy ===
/** Strings, characters and the few JavaScript string operations the app
    relies on: `trim`, `split("\n")` / `join("\n")`, and the binary (code
    point) ordering SQLite uses to sort TEXT columns.

    Strings are sequences of characters. The app's JavaScript strings are
    sequences of UTF-16 code units; none of the operations modelled here
    treats a surrogate pair differently from two characters, so the model
    does not distinguish the two. */
module Text {

  /** `\d` of a JavaScript regular expression without the `u` flag. */
  predicate IsDigit(c: char) {
    '0' <= c <= '9'
  }

  /** The characters `String.prototype.trim` removes: the WhiteSpace and
      LineTerminator code points of ECMA-262 (sections 12.2 and 12.3). */
  predicate IsTrimmable(c: char) {
    || c == '\t' || c == '\n' || c == '\U{000B}' || c == '\U{000C}' || c == '\r'
    || c == ' ' || c == '\U{00A0}' || c == '\U{1680}'
    || ('\U{2000}' <= c <= '\U{200A}')
    || c == '\U{2028}' || c == '\U{2029}' || c == '\U{202F}' || c == '\U{205F}'
    || c == '\U{3000}' || c == '\U{FEFF}'
  }

  predicate AllTrimmable(s: string) {
    forall i :: 0 <= i < |s| ==> IsTrimmable(s[i])
  }

  /** Leading part of `trim`: drops whitespace from the front. */
  function TrimStart(s: string): (r: string)
    ensures |r| <= |s| && r == s[|s| - |r|..]
    ensures |r| > 0 ==> !IsTrimmable(r[0])
    ensures forall i :: 0 <= i < |s| - |r| ==> IsTrimmable(s[i])
  {
    if |s| > 0 && IsTrimmable(s[0]) then
      var r := TrimStart(s[1..]);
      assert s[1..][|s| - 1 - |r|..] == s[|s| - |r|..];
      r
    else s
  }

  /** Trailing part of `trim`: drops whitespace from the back. */
  function TrimEnd(s: string): (r: string)
    ensures |r| <= |s| && r == s[..|r|]
    ensures |r| > 0 ==> !IsTrimmable(r[|r| - 1])
    ensures forall i :: |r| <= i < |s| ==> IsTrimmable(s[i])
  {
    if |s| > 0 && IsTrimmable(s[|s| - 1]) then
      var r := TrimEnd(s[..|s| - 1]);
      assert s[..|s| - 1][..|r|] == s[..|r|];
      r
    else s
  }

  /** `r` is a window of `s` with nothing but whitespace outside it. */
  predicate TrimmedWindow(s: string, r: string) {
    exists k :: (0 <= k <= |s| - |r| && r == s[k..k + |r|]
      && AllTrimmable(s[..k]) && AllTrimmable(s[k + |r|..]))
  }

  /** `s.trim()`: the input with its leading and trailing whitespace cut
      off, so what remains starts and ends with a character `trim` keeps. */
  function Trim(s: string): (r: string)
    ensures TrimmedWindow(s, r)
    ensures |r| > 0 ==> !IsTrimmable(r[0]) && !IsTrimmable(r[|r| - 1])
    ensures |r| == 0 <==> AllTrimmable(s)
    ensures |s| > 0 && !IsTrimmable(s[0]) && !IsTrimmable(s[|s| - 1]) ==> r == s
  {
    var t := TrimStart(s);
    var r := TrimEnd(t);
    TrimmedIsWindow(s, t, r);
    r
  }

  /** What the two halves of `trim` promise, put together: a suffix of `s`
      cut back to a prefix of itself is a window of `s` with only
      whitespace outside it. */
  lemma TrimmedIsWindow(s: string, t: string, r: string)
    requires |t| <= |s| && t == s[|s| - |t|..]
    requires |t| > 0 ==> !IsTrimmable(t[0])
    requires forall i :: 0 <= i < |s| - |t| ==> IsTrimmable(s[i])
    requires |r| <= |t| && r == t[..|r|]
    requires |r| > 0 ==> !IsTrimmable(r[|r| - 1])
    requires forall i :: |r| <= i < |t| ==> IsTrimmable(t[i])
    ensures TrimmedWindow(s, r)
    ensures |r| > 0 ==> !IsTrimmable(r[0]) && !IsTrimmable(r[|r| - 1])
    ensures |r| == 0 <==> AllTrimmable(s)
    ensures |s| > 0 && !IsTrimmable(s[0]) && !IsTrimmable(s[|s| - 1]) ==> r == s
  {
    var k := |s| - |t|;
    assert AllTrimmable(s[..k]) by {
      forall i | 0 <= i < k ensures IsTrimmable(s[..k][i]) {
        assert s[..k][i] == s[i];
      }
    }
    assert s[k + |r|..] == t[|r|..];
    assert AllTrimmable(t[|r|..]);
    assert r == s[k..k + |r|];
    assert |r| > 0 ==> r[0] == t[0];
    if |r| == 0 {
      assert |t| == 0;
    }
  }

  /** Trimming twice is trimming once. */
  lemma TrimIdempotent(s: string)
    ensures Trim(Trim(s)) == Trim(s)
  {
  }

  /** `parts.join("\n")`: the first piece, then every other piece after a
      line feed. Nothing for no pieces, the piece itself for one. */
  function JoinLines(parts: seq<string>): (r: string)
    ensures |parts| == 0 ==> r == ""
    ensures |parts| == 1 ==> r == parts[0]
    ensures |parts| > 0 ==> |parts[0]| <= |r| && r[..|parts[0]|] == parts[0]
    ensures |parts| > 1 ==> |parts[0]| < |r| && r[|parts[0]|] == '\n'
  {
    if |parts| == 0 then ""
    else if |parts| == 1 then parts[0]
    else parts[0] + "\n" + JoinLines(parts[1..])
  }

  predicate NoNewline(s: string) {
    '\n' !in s
  }

  /** `s.split("\n")`: the pieces between line feeds, at least one. */
  function SplitLines(s: string): (r: seq<string>)
    ensures |r| >= 1
    ensures forall i :: 0 <= i < |r| ==> NoNewline(r[i])
    ensures |r| == 1 <==> NoNewline(s)
    decreases |s|
  {
    if |s| == 0 then [""]
    else
      var rest := SplitLines(s[1..]);
      if s[0] == '\n' then [""] + rest
      else
        assert '\n' in s <==> '\n' in s[1..] by {
          assert s == [s[0]] + s[1..];
        }
        [[s[0]] + rest[0]] + rest[1..]
  }

  /** Splitting undoes joining: the pieces come back as they were, as long
      as none of them holds a line feed. */
  lemma {:induction false} SplitJoin(parts: seq<string>)
    requires |parts| >= 1
    requires forall i :: 0 <= i < |parts| ==> NoNewline(parts[i])
    ensures SplitLines(JoinLines(parts)) == parts
    decreases |parts|
  {
    if |parts| == 1 {
      SplitSingle(parts[0]);
    } else {
      SplitJoin(parts[1..]);
      SplitAfterLine(parts[0], JoinLines(parts[1..]));
      assert parts == [parts[0]] + parts[1..];
    }
  }

  /** A newline-free string is a single piece. */
  lemma {:induction false} SplitSingle(a: string)
    requires NoNewline(a)
    ensures SplitLines(a) == [a]
    decreases |a|
  {
    if |a| > 0 {
      assert NoNewline(a[1..]) by {
        assert a == [a[0]] + a[1..];
      }
      SplitSingle(a[1..]);
      assert [a[0]] + a[1..] == a;
    }
  }

  /** A newline-free first line followed by a line feed is split off whole. */
  lemma {:induction false} SplitAfterLine(a: string, b: string)
    requires NoNewline(a)
    ensures SplitLines(a + "\n" + b) == [a] + SplitLines(b)
    decreases |a|
  {
    if |a| == 0 {
      assert a + "\n" + b == "\n" + b;
      assert ("\n" + b)[1..] == b;
    } else {
      var s := a + "\n" + b;
      assert s[1..] == a[1..] + "\n" + b;
      assert NoNewline(a[1..]) by {
        assert a == [a[0]] + a[1..];
      }
      SplitAfterLine(a[1..], b);
      assert [a[0]] + a[1..] == a;
    }
  }

  /** Splitting and joining again gives the original text back. */
  lemma {:induction false} JoinSplit(s: string)
    ensures JoinLines(SplitLines(s)) == s
    decreases |s|
  {
    if |s| > 0 {
      JoinSplit(s[1..]);
      var rest := SplitLines(s[1..]);
      if s[0] == '\n' {
        assert JoinLines([""] + rest) == "" + "\n" + JoinLines(rest);
        assert s == "\n" + s[1..];
      } else {
        var r := [[s[0]] + rest[0]] + rest[1..];
        if |rest| == 1 {
          assert JoinLines(r) == [s[0]] + rest[0];
        } else {
          assert r[1..] == rest[1..];
          assert JoinLines(rest) == rest[0] + "\n" + JoinLines(rest[1..]);
          assert JoinLines(r) == [s[0]] + rest[0] + "\n" + JoinLines(rest[1..]);
        }
        assert s == [s[0]] + s[1..];
      }
    }
  }

  /** Binary collation of SQLite on TEXT values: lexicographic order of the
      characters (UTF-8 byte order and code point order agree), a proper
      prefix coming first. */
  predicate StrLess(a: string, b: string)
    decreases |a|
  {
    if |a| == 0 then |b| > 0
    else |b| > 0 && (a[0] < b[0] || (a[0] == b[0] && StrLess(a[1..], b[1..])))
  }

  lemma {:induction false} StrLessIrreflexive(a: string)
    ensures !StrLess(a, a)
    decreases |a|
  {
    if |a| > 0 {
      StrLessIrreflexive(a[1..]);
    }
  }

  lemma {:induction false} StrLessTransitive(a: string, b: string, c: string)
    requires StrLess(a, b) && StrLess(b, c)
    ensures StrLess(a, c)
    decreases |a|
  {
    if |a| > 0 && a[0] == b[0] && b[0] == c[0] {
      StrLessTransitive(a[1..], b[1..], c[1..]);
    }
  }

  lemma {:induction false} StrLessTotal(a: string, b: string)
    ensures a == b || StrLess(a, b) || StrLess(b, a)
    decreases |a|
  {
    if |a| > 0 && |b| > 0 && a[0] == b[0] {
      StrLessTotal(a[1..], b[1..]);
      if a[1..] == b[1..] {
        assert a == [a[0]] + a[1..] && b == [b[0]] + b[1..];
      }
    }
  }
}

=== FILE: wrappers.dfy ===
/** The optional value shared by the store, the export and the tokenizer. */
module Wrappers {

  datatype Option<T> = None | Some(value: T)
}
